=== FILE: README.md ===
# aw-bot moderation core in Dafny

This project models the decision logic of the aw-bot chat bot. The bot is a
moderation-and-utility bot for one community server: event handlers react to
messages, edits, deletions, reactions and member updates, and a small SQLite
store keeps patterns, role grants, a blacklist and aliases. Every handler
here is a pure function over plain data: ids, strings, integer timestamps and
sets of users. It returns the platform calls it would make as action values.

Modules, following the source files:

- `Names` (bot/utils.py): the username charset check, the numeric-name check and the placeholder nickname `Unknown Soldier NN`.
- `MemberEvents` (bot/events_handlers/member_events.py): which name is checked on join and on update, and whether the member is renamed.
- `ServerSearch` (bot/utils.py): the `/search` listing and the `/stats` summary. The fetched server list and the per-game payloads are inputs.
- `Store` (database/__init__.py): the four tables, with INSERT, INSERT OR REPLACE, INSERT OR IGNORE, DELETE and the lookups.
- `Cooldown`, `Throttle`, `Attachments`, `Duplicate`, `AuditLog`, `Dispatch` (bot/events_handlers/message_events.py):
  - the 60-second AI cooldown;
  - the two 8-hour responders;
  - image and torrent detection on attachments;
  - the cross-channel duplicate scan;
  - the edit and delete logs with the ghost-ping audits;
  - the order of checks in `handle_message`.
- `Reaction` (bot/events_handlers/reaction_events.py): the ❌ self-delete policy.
- `Text`, `Platform`, `Wrappers`: shared helpers:
  - Python string built-ins (`startswith`, `endswith`, `in`, `str(n)`, `f"{n:02d}"`);
  - SQLite's ASCII-only `LOWER()`;
  - the message, user and attachment records;
  - `Option`/`Result`.

Choices the model makes:

- Randomness is an input: the `draw` of `random.randint(1, 99)`.
- Time is an input: integer seconds standing for `time.time()` and `aware_utcnow()`.
- Python's Unicode character tables are a parameter, `Text.CharClasses`. It covers `\d`, `str.isnumeric`, `str.isspace` and `str.lower`. Only the ASCII facts a lemma needs are assumed (`AgreesOnAscii`).
- The schema file of the database is not part of this model. Its keys are stated as assumptions in the `Store` module:
  - `user_id` is the key of `user_roles` and of `black_list`, so each table is a map;
  - pattern ids are SQLite rowids, listed in rowid order;
  - `aka_list` has no unique key.
- `timeout_member` takes only the member and always times out for one minute with the reason "Requested by the bot" (bot/utils.py:70-90). The duplicate warning uses it that way, so the model's duplicate timeout is one minute. The three other call sites pass a duration and a reason, which raises TypeError (see Findings). `HandleMessage` models those three calls as intended: a timeout for the duration and reason written at the call site. `HandleMessageAsWritten` models the TypeError.
- The mention guard counts `len(message.mentions)`, so a user mentioned twice counts twice.
- `handle_message` has no regex auto-reply step. The pattern table is only read and written through `Store`.
- A duplicate needs non-blank text: `message.content.strip()` must be non-empty.

## Model

| member | source | states |
|---|---|---|
| Names.LeadingRun | bot/utils.py:95-96 | the greedy run of `[\d\x00-\x7F\xC0-\xFF]` characters at the start of a name: all inside the class, and the next character (if any) outside it |
| Names.IsValidUsername | bot/utils.py:94-96 | the anchored `{2,}` match succeeds iff the name has at least two characters and the first two are each a decimal digit or a code point in 0x00–0x7F or 0xC0–0xFF |
| Names.IsNumericName | bot/utils.py:100-101 | `isnumeric()` holds iff the name is non-empty and every character is numeric under the supplied Unicode tables; on an ASCII name (numeric ASCII characters being the digits) that is a non-empty string of 0–9 |
| Names.NumericNameConcat | bot/utils.py:100-101 | two non-empty names joined are numeric iff both parts are |
| Names.LaterCharactersIrrelevant | bot/utils.py:94-96 | two names that share their first two characters get the same charset verdict |
| Names.GenerateRandomNickname | bot/utils.py:105-107 | the nickname is "Unknown Soldier " plus exactly two ASCII digits whose value is the draw in 1..99, so the suffix is never "00" |
| Names.NicknameDeterminesDraw | bot/utils.py:105-107 | different draws give different nicknames |
| Text.ZeroPad2 | bot/utils.py:107 | `{n:02d}` for n < 100 is two digits that read back as n |
| Text.NatToStringRoundTrip | bot/utils.py:58 | the decimal text of a count reads back as the count |
| MemberEvents.JoinNameToCheck | bot/events_handlers/member_events.py:5-8 | on join the display name is checked when non-empty, otherwise the account name |
| MemberEvents.UpdateNameToCheck | bot/events_handlers/member_events.py:20-23 | on update the nickname is checked when set and non-empty, otherwise the account name |
| MemberEvents.Decide | bot/events_handlers/member_events.py:10-16 | a rename is issued iff the name is shorter than 3, one of its first two characters is outside the username class, or it is numeric; the new nickname is "Unknown Soldier " plus two ASCII digits reading back as the draw |
| MemberEvents.HandleMemberJoin | bot/events_handlers/member_events.py:4-16 | the join handler renames iff the policy rejects the chosen name, always to an "Unknown Soldier " nickname |
| MemberEvents.HandleMemberUpdate | bot/events_handlers/member_events.py:19-31 | the update handler renames iff the policy rejects the nickname-or-name, always to an "Unknown Soldier " nickname |
| MemberEvents.Apply | bot/events_handlers/member_events.py:15-16 | without a rename the member is unchanged; a rename sets the nickname, and the display name derived from it; the account name stays |
| MemberEvents.NeedsRename | bot/events_handlers/member_events.py:10-14 | rename iff the name is shorter than 3, one of its first two characters is outside the class, or it is numeric |
| MemberEvents.ShortNamesRenamed | bot/events_handlers/member_events.py:11 | every name shorter than three characters is renamed |
| MemberEvents.NumericNamesRenamed | bot/events_handlers/member_events.py:28 | a numeric name is renamed whatever its length |
| MemberEvents.PlaceholderPasses | bot/events_handlers/member_events.py:25-29 | the generated nickname passes the policy itself |
| MemberEvents.RenameSettles | bot/events_handlers/member_events.py:19-31 | the update event caused by the bot's own rename issues no further rename, so renaming does not loop |
| ServerSearch.MatchingServers | bot/utils.py:46-51 | a server is kept iff the lower-cased query occurs in its lower-cased hostname or ip (missing fields read as "") |
| ServerSearch.MatchingKeepsOrder | bot/utils.py:46-51 | filtering distributes over concatenation, so matches stay in input order |
| ServerSearch.ListingBounds | bot/utils.py:56-60 | at most five servers are listed: the first min(matches, 5) matches, in order, each a match |
| ServerSearch.ServerLine | bot/utils.py:61-65 | a server has a listing line iff it has a hostname (`server['hostnameDisplay']` raises otherwise) |
| ServerSearch.Rendered | bot/utils.py:60-65 | one line per listed server, in order, each that server's line |
| ServerSearch.Lines | bot/utils.py:60-65 | the listing renders iff every listed server has a hostname, and is then exactly their lines concatenated in order; otherwise it raises KeyError |
| ServerSearch.PerformSearch | bot/utils.py:43-66 | the reply is the fixed "No servers found…" text iff nothing matches; otherwise it is the "Top N servers matching" header with N = min(matches, 5), followed by exactly the lines of the first N matches in input order, or KeyError when one of them has no hostname |
| ServerSearch.StatLines | bot/utils.py:30-39 | one line per game, in list order, each computed from that game's payload alone |
| ServerSearch.CompileStats | bot/utils.py:29-40 | the summary starts with the fixed header |
| ServerSearch.CompileStatsLayout | bot/utils.py:30-40 | the summary is the header followed by exactly the four game lines, iw4, s1, iw6, t7 |
| ServerSearch.FailureIsLocal | bot/utils.py:33-39 | a falsy payload gives that game's "Failed to fetch stats." line, and changing one game's payload changes no other game's line |
| Store.AddMemePattern | database/__init__.py:28-38 | after an insert the listing is the old listing plus the new pair; the new id is fresh; rowid order is kept; other tables are untouched |
| Store.GetMemePatterns | database/__init__.py:41-50 | one regex/response pair per stored row, in row order, each the pair of that row |
| Store.RemoveMemePattern | database/__init__.py:53-60 | exactly the rows with that id disappear, all others stay in order, other tables are untouched |
| Store.RemoveAbsentIdIsNoop | database/__init__.py:53-60 | deleting an id no row carries changes nothing |
| Store.AddThenRemoveRestores | database/__init__.py:28-60 | removing the row just inserted gives back the original store |
| Store.MigrateUsersWithRole | database/__init__.py:63-74 | INSERT OR IGNORE: an existing user's row is never overwritten; a new user gets the given row |
| Store.AddUserToRole | database/__init__.py:77-88 | INSERT OR REPLACE: afterwards the user's row holds the new role, name and date; other users' rows are unchanged |
| Store.UserHasRole | database/__init__.py:91-101 | true iff the user has a row in `user_roles`, whatever role the row names (the query filters on user_id only) |
| Store.RoleInsertsAreKeyed | database/__init__.py:63-101 | after either insert `user_has_role` holds; the set of users with a row grows by at most that user; re-adding adds no row |
| Store.AddUserToBlacklist | database/__init__.py:104-115 | INSERT OR IGNORE: afterwards the user is blacklisted, and an existing entry is kept as it was |
| Store.IsUserBlacklisted | database/__init__.py:118-128 | true iff the user has a row in `black_list` |
| Store.FirstReasonKept | database/__init__.py:104-128 | blacklisting a user twice keeps the first reason |
| Store.AddAkaResponse | database/__init__.py:131-143 | an alias insert appends one row and touches nothing else |
| Store.SearchAka | database/__init__.py:146-158 | the answer is the response of an entry whose ASCII-lower-cased alias equals the lower-cased keyword, and None iff there is none |
| Store.AkaFoundAfterAdd | database/__init__.py:131-158 | after adding an alias, a search for it in any ASCII case finds an answer, the new one when no older alias matched |
| Cooldown.Prune | bot/events_handlers/message_events.py:64-66 | a timestamp survives pruning iff it is less than 60 seconds old; the result is no longer than the input |
| Cooldown.PruneAppend | bot/events_handlers/message_events.py:66 | pruning distributes over concatenation, so it keeps the survivors' order and multiplicity |
| Cooldown.PruneEmptyIff | bot/events_handlers/message_events.py:66-67 | pruning leaves nothing iff no use happened within the last 60 seconds |
| Cooldown.Check | bot/events_handlers/message_events.py:61-74 | a non-staff user with a use in the last 60 seconds is refused and the map is unchanged; otherwise the user's list becomes the pruned list with now appended last, and other users are untouched |
| Cooldown.NonStaffKeepsOneStamp | bot/events_handlers/message_events.py:67-74 | a non-staff user who is let through holds exactly one timestamp: now |
| Cooldown.OneUsePerWindow | bot/events_handlers/message_events.py:61-74 | after a use at t1 the same non-staff user is refused before t1+60 and accepted from t1+60 |
| Cooldown.StaffNeverRefused | bot/events_handlers/message_events.py:67 | staff are never refused |
| Throttle.Respond | bot/events_handlers/message_events.py:110-123 | fires iff the author is the fixed user and there was no earlier response or 8 hours have passed; firing sets last := now, otherwise last is unchanged |
| Throttle.AtMostOncePerInterval | bot/events_handlers/message_events.py:110-139 | after firing at t1 nothing fires before t1+8h, and the target fires again from then on |
| Attachments.FirstImage | bot/events_handlers/message_events.py:35-46 | the result is the first attachment whose lower-cased name ends in .jpg/.jpeg (as image/jpeg) or .png (as image/png), and None iff there is none |
| Attachments.FetchImageFromMessage | bot/events_handlers/message_events.py:35-46 | the breaking loop returns exactly the first image attachment, typed image/jpeg or image/png |
| Attachments.TorrentSuffixIsCaseSensitive | bot/events_handlers/message_events.py:415-416 | no file whose name ends in ".Torrent" is caught, while ".torrent" and ".TORRENT" names are |
| Duplicate.FirstDuplicate | bot/events_handlers/message_events.py:142-180 | the channel reported is the first, in guild order, that is not the own channel, was readable, and holds a same-author same-text copy under 5 minutes old among its five newest messages; None iff no channel does |
| Duplicate.FirstDuplicateAt | bot/events_handlers/message_events.py:144-176 | when channel i is the first that flags, channel i is the one reported |
| Duplicate.IsMessageADuplicate | bot/events_handlers/message_events.py:142-180 | the nested scan with its early return reports exactly the first flagging channel |
| Duplicate.AttachmentOrBlankNeverFlagged | bot/events_handlers/message_events.py:154-158 | a message with an attachment or with blank text is never flagged |
| Duplicate.RecentCopyFlagged | bot/events_handlers/message_events.py:160-176 | a same-author copy under 5 minutes old among the five newest messages of another readable channel is flagged |
| Duplicate.FirstDuplicateAppend | bot/events_handlers/message_events.py:144-176 | scanning two runs of channels: a hit in the first run wins, otherwise the second run decides |
| Duplicate.FailedChannelSkipped | bot/events_handlers/message_events.py:177-180 | a channel whose history raised is skipped and the verdict equals the scan without that channel |
| AuditLog.DetectGhostPing | bot/events_handlers/message_events.py:201-226 | an audit is produced iff the deleted message mentioned someone and the log channel exists; it names the message's author, channel and id and lists exactly the mentions |
| AuditLog.MentionLines | bot/events_handlers/message_events.py:239-243 | the "Added" line is present iff added mentions exist and the "Removed" line iff removed ones exist; nothing else appears |
| AuditLog.DetectGhostPingInEdit | bot/events_handlers/message_events.py:229-265 | an audit is produced iff the mention sets differ and the log channel exists; it names the message's author, channel and id, and its lines are exactly `MentionLines` of after∖before and before∖after, so each line appears only when its set is non-empty |
| AuditLog.EditDifferenceIsSymmetric | bot/events_handlers/message_events.py:236-237 | the added and removed sets are disjoint, their union is the symmetric difference, and both are empty iff the sets are equal |
| AuditLog.HandleMessageEdit | bot/events_handlers/message_events.py:268-290 | the edit is logged iff the log channel exists, the old text is non-empty and the text changed; the log comes first; a second effect appears iff the mentions changed, and it is exactly the `DetectGhostPingInEdit` audit |
| AuditLog.DeletionLog | bot/events_handlers/message_events.py:338-367 | a user's deletion log is exactly one, two or three effects: the entry first (content iff non-empty, Replied = author of the fetched message iff it is a reply); the `DetectGhostPing` audit of the message iff there were mentions, and no other audit; the closing "special" message iff the bot had answered, and then last |
| AuditLog.HandleMessageDelete | bot/events_handlers/message_events.py:319-367 | nothing happens without the log channel; bot messages outside the log channel are ignored and one in it draws only the warning; for a user's message, a failed fetch of the replied-to message stops the handler with one unhandled exception and nothing logged, and otherwise the result is exactly `DeletionLog` (the entry, the ghost-ping audit iff there were mentions, the closing message iff the bot had answered, last) |
| Reaction.HandleReactionAdd | bot/events_handlers/reaction_events.py:9-45 | any failing guard does nothing; the guards are: the bot's own reaction, an emoji other than ❌, a message not by the bot, a message 5 minutes old or older, no reference. When all pass, the bot reply is deleted iff the reactor wrote the referenced message; otherwise only the reactor's reaction is removed. NotFound/Forbidden only log |
| Reaction.OnlyOriginalAuthorDeletes | bot/events_handlers/reaction_events.py:42-45 | a deletion implies the reactor wrote the referenced message, is not the bot, and the reply is under 5 minutes old |
| Dispatch.AiInput | bot/events_handlers/message_events.py:76-97 | the message's own first image has priority; the reply is the fetched replied-to message iff there is a reference and the fetch succeeded; failing an own image, the image is that message's first image |
| Dispatch.HandleBotMention | bot/events_handlers/message_events.py:49-101 | outside the allowed channels only the refusal reply is sent and nothing changes; inside, the "too quickly" reply with no change happens iff the cooldown refuses; otherwise the cooldown map becomes the checked one and the single action is the forward of `AiInput` (or, as written, the TypeError) |
| Dispatch.Guard | bot/events_handlers/message_events.py:387-420 | a guard applies iff there are three or more mentions, an unauthorised @everyone/@here, or a torrent; no guard touches the cooldowns or responder times or forwards to the AI; as written each ends in the TypeError and deletes nothing; as intended the message is deleted iff it is not the broadcast guard |
| Dispatch.Routine | bot/events_handlers/message_events.py:422-436 | after the guards only sends, replies and timeouts happen, and neither the cooldowns nor the database change |
| Dispatch.HandleMessageUnder | bot/events_handlers/message_events.py:370-436 | own messages do nothing; a DM gets only the warning; a guild message mentioning the bot or the AI role is answered exactly as `HandleBotMention` answers it (no-context iff the AI role was mentioned); a deletion happens only as intended, for a moderated message a guard caught; an AI forward happens only as intended, for a guild message mentioning the bot or the AI role in an allowed channel |
| Dispatch.HandleMessage | bot/events_handlers/message_events.py:370-436 | as intended, a message is deleted iff it is moderated and has three or more mentions, or, without an unauthorised broadcast ping, a torrent attachment |
| Dispatch.HandleMessageAsWritten | bot/events_handlers/message_events.py:387-420 | as written, every moderated message a guard catches ends in the TypeError of the `timeout_member` call; a moderated message no guard catches is handled exactly as intended |
| Dispatch.OwnMessagesIgnored | bot/events_handlers/message_events.py:371-372 | the bot's own messages produce no action and no state change |
| Dispatch.BotMentionOutcomes | bot/events_handlers/message_events.py:378-385 | at the handler level a bot or AI-role mention gets only the refusal outside the allowed channels; inside, only the "too quickly" reply with no change iff the cooldown refuses, and otherwise the forward of `AiInput` with the checked cooldown map |
| Dispatch.MentionSpamComesFirst | bot/events_handlers/message_events.py:387-392 | three or more mentions give a 5-minute timeout and deletion and nothing else, before the broadcast check |
| Dispatch.TwoMentionsNotDeleted | bot/events_handlers/message_events.py:388 | fewer than three mentions (and no torrent) never lead to deletion |
| Dispatch.BroadcastGuard | bot/events_handlers/message_events.py:394-412 | an unauthorised @everyone/@here gives exactly: the spam role grant only when the member lacks it, the "Dink Donk" reply, and the 5-minute timeout; the database gains the role row only in the grant case; the message is not deleted |
| Dispatch.TorrentGuard | bot/events_handlers/message_events.py:414-420 | a torrent attachment gives a 120-minute timeout and deletion and nothing else |
| Dispatch.CrazyComesFirst | bot/events_handlers/message_events.py:422-423 | past the guards, when the first responder fires, its one message is the whole answer and only its last-response time changes |
| Dispatch.HateMeComesNext | bot/events_handlers/message_events.py:425-426 | the second responder is reached only when the first stays silent, and when it fires it answers alone |
| Dispatch.DuplicateWarnedOnce | bot/events_handlers/message_events.py:428-436 | past the guards and responders, the actions are exactly the warning naming the first flagging channel plus one one-minute timeout iff the scan finds a copy, followed by the link reply iff "http" is in the text, there is no embed and the channel is general; the state is unchanged |
| Dispatch.StateFrame | bot/events_handlers/message_events.py:370-436 | a message changes only the author's cooldown, the last time of a responder that fired, and the author's spam-role row |
| Dispatch.AsWrittenNeverDeletesOrForwards | bot/events_handlers/message_events.py:387-420 | as written, `handle_message` never deletes a message and never reaches the AI |
| Dispatch.AsWrittenOffArityPaths | bot/events_handlers/message_events.py:387-420 | on a moderated message the code as written equals the intended handler when no guard applies; the mention-spam and torrent guards do nothing but raise; the broadcast guard makes the same role grant, database row and reply as intended and raises in place of the final timeout |
| Dispatch.TorrentCounterexample | bot/events_handlers/message_events.py:414-420 | for a concrete torrent post the code as written stops with TypeError, while the intended handler times out and deletes |
| Dispatch.IntendedMentionForwarded | bot/events_handlers/message_events.py:378-381 | a staff mention of the AI role in an allowed channel is forwarded without context and the use is recorded |
| Dispatch.AiForwardingCounterexample | bot/events_handlers/message_events.py:100 | as written, the same mention spends the cooldown and then raises TypeError |

## Findings

| source | as written | input that shows it | evidently intended | confidence | as-written member | corrected member |
|---|---|---|---|---|---|---|
| bot/events_handlers/message_events.py:418 | `timeout_member(member, timedelta(minutes=120), "Torrents")` passes three arguments to a function declared with one (bot/utils.py:70). The call raises TypeError before `message.delete()`. The same happens at lines 390 and 411. | a guild message with an attachment `movie.torrent`, no mentions, no @everyone | time the author out for the given duration and reason, then delete the message | high; not executed | Dispatch.TorrentCounterexample | Dispatch.TorrentGuard |
| bot/events_handlers/message_events.py:100 | `forward_to_google_api(message, bot, image_object, reply_content, no_context)` passes five arguments to a function declared with one (bot/ai/handle_request.py:7). It raises after the cooldown has been spent. | a staff member's message mentioning the AI role in an allowed channel | hand the message, image, replied-to message and context flag to the AI client | high; not executed | Dispatch.AiForwardingCounterexample | Dispatch.IntendedMentionForwarded |

## Left out

- Platform I/O: sending, replying, embeds, deleting, role grants and timeouts are emitted as action values. Embed titles, colours and footers are not modelled.
- The body of `timeout_member` (bot/utils.py:70-90) is not modelled. A `Timeout` action stands for the attempt. Permission and HTTP failures are swallowed there and change nothing in the model.
- The AI client (bot/ai/handle_request.py) is not modelled. A `ForwardToAI` action stands for the call.
- `was_message_replied_by_bot` iterates channel history through the platform. Its answer is the `botReplied` input.
- `handle_bulk_message_delete` is not modelled. It returns when the log channel is missing; otherwise it posts one delete log per message (author, channel, content when non-empty, message id), without the single-message handler's bot-author check, replied-to fetch, ghost-ping audit or closing message.
- Network and storage clients are not modelled: the forum REST client, MongoDB, `fetch_api_data` and `fetch_game_stats`. Their results are inputs.
- The server payload is assumed to be a dict. Only `hostnameDisplay` and `ip` may be missing, and stat values arrive already rendered as text.
- Voice playback, periodic tasks, slash-command registration, the library cooldown decorator, bootstrap wiring and `bot/config.py` are not modelled; none of them decides anything.
- SQLite connections and loading the schema file are not modelled. The tables are abstract values, and their keys are the assumptions stated above.
- Python's Unicode tables are a parameter, not reimplemented. `str.lower` is any string function.
- `time.time()` returns a float; the model uses whole seconds, so sub-second differences at the 60-second, 5-minute and 8-hour boundaries are not modelled.
- The model assumes `guild.get_member` and `guild.get_role` always find the author and the roles. In the source a missing AI role only makes the role-mention test false (bot/events_handlers/message_events.py:378-379), and `timeout_member(None)` returns early (bot/utils.py:71-73). A missing member raises AttributeError at `member.roles`: in the cooldown check when the author has a recent use (message_events.py:67), and in the broadcast guard (message_events.py:400).
- Users compare by value (id and name); discord.py compares them by id.
- MemberEvents.HandleMemberUpdate: reads only the member after the update, as the source does; the member before the update is an unused parameter.
- Platform calls are assumed to succeed: a send, reply, role grant, deletion or timeout never raises in the model.
- Duplicate.FirstDuplicate: reports only the first flagging channel. This follows from the assumption above. In the source the warning `send` sits inside the same per-channel `try` as `channel.history(limit=5)` (bot/events_handlers/message_events.py:148-180). If that send raises Forbidden or HTTPException, the exception is caught and the scan moves on, so a later channel can also be warned about and its timeout attempted.
- Duplicate.FirstDuplicate: uses one `now` for every candidate. The source calls `aware_utcnow()` again for each candidate (bot/events_handlers/message_events.py:161), so a scan that straddles the 5-minute boundary can differ from the model.

=== FILE: attachments.dfy ===
/** Attachment checks of bot/events_handlers/message_events.py: picking the
    image to forward (`fetch_image_from_message`) and spotting torrent files. */
module Attachments {
  import opened Wrappers
  import opened Text
  import opened Platform

  datatype ImageRef = ImageRef(url: string, mime: string)

  predicate IsJpeg(cc: CharClasses, a: Attachment) {
    var f := cc.lower(a.filename);
    EndsWith(f, ".jpg") || EndsWith(f, ".jpeg")
  }

  predicate IsPng(cc: CharClasses, a: Attachment) {
    EndsWith(cc.lower(a.filename), ".png")
  }

  predicate IsImage(cc: CharClasses, a: Attachment) {
    IsJpeg(cc, a) || IsPng(cc, a)
  }

  /** The pair built for an image attachment; the JPEG suffixes are checked first. */
  function ImageOf(cc: CharClasses, a: Attachment): ImageRef {
    if IsJpeg(cc, a) then ImageRef(a.url, "image/jpeg") else ImageRef(a.url, "image/png")
  }

  /** The first image attachment, as a reference definition. */
  function FirstImage(cc: CharClasses, atts: seq<Attachment>): (r: Option<ImageRef>)
    ensures r.None? <==> forall i :: 0 <= i < |atts| ==> !IsImage(cc, atts[i])
    ensures r.Some? ==> exists i :: 0 <= i < |atts| && IsImage(cc, atts[i])
                          && (forall j :: 0 <= j < i ==> !IsImage(cc, atts[j]))
                          && r.value == ImageOf(cc, atts[i])
    decreases |atts|
  {
    if atts == [] then None
    else if IsImage(cc, atts[0]) then Some(ImageOf(cc, atts[0]))
    else
      var r := FirstImage(cc, atts[1..]);
      assert forall i :: 1 <= i < |atts| ==> atts[i] == atts[1..][i - 1];
      r
  }

  /** `fetch_image_from_message`: the loop that breaks at the first `.jpg` /
      `.jpeg` (as `image/jpeg`) or `.png` (as `image/png`) attachment. */
  method FetchImageFromMessage(cc: CharClasses, atts: seq<Attachment>) returns (image: Option<ImageRef>)
    ensures image.None? <==> forall i :: 0 <= i < |atts| ==> !IsImage(cc, atts[i])
    ensures image.Some? ==> image.value.mime == "image/jpeg" || image.value.mime == "image/png"
    ensures image == FirstImage(cc, atts)
  {
    image := None;
    var k := 0;
    while k < |atts|
      invariant 0 <= k <= |atts|
      invariant forall j :: 0 <= j < k ==> !IsImage(cc, atts[j])
      invariant FirstImage(cc, atts) == FirstImage(cc, atts[k..])
    {
      var a := atts[k];
      if IsJpeg(cc, a) {
        image := Some(ImageRef(a.url, "image/jpeg"));
        break;
      } else if IsPng(cc, a) {
        image := Some(ImageRef(a.url, "image/png"));
        break;
      }
      assert atts[k..][1..] == atts[k + 1..];
      k := k + 1;
    }
  }

  /** `file.filename.endswith((".torrent", ".TORRENT"))`: case-sensitive,
      exactly these two spellings. */
  predicate IsTorrent(a: Attachment) {
    EndsWith(a.filename, ".torrent") || EndsWith(a.filename, ".TORRENT")
  }

  predicate HasTorrent(atts: seq<Attachment>) {
    exists i :: 0 <= i < |atts| && IsTorrent(atts[i])
  }

  /** Only the all-lower and all-upper suffixes count: any file whose name
      ends in the mixed-case ".Torrent" is not caught. */
  lemma TorrentSuffixIsCaseSensitive(a: Attachment)
    ensures EndsWith(a.filename, ".Torrent") ==> !IsTorrent(a)
    ensures IsTorrent(Attachment("movie.torrent", ""))
    ensures IsTorrent(Attachment("MOVIE.TORRENT", ""))
  {
    assert "movie.torrent"[13 - 8..] == ".torrent";
    assert "MOVIE.TORRENT"[13 - 8..] == ".TORRENT";
    if EndsWith(a.filename, ".Torrent") {
      var tail := a.filename[|a.filename| - 8..];
      assert tail[1] == 'T' && tail[2] == 'o';
      assert ".torrent"[1] == 't' && ".TORRENT"[2] == 'O';
    }
  }
}

=== FILE: audit_log.dfy ===
/** The logging side of bot/events_handlers/message_events.py: the edit and
    delete handlers and the ghost-ping audits they trigger. Embeds are
    modelled as structured entries sent to the log channel; whether
    `bot.get_channel(BOT_LOG)` finds that channel is the input `logReachable`. */
module AuditLog {
  import opened Wrappers
  import opened Text
  import opened Platform

  const BotLog: Snowflake := 1112049391482703873

  const LogDeletionWarning := "You attempted to delete a message from a channel where messages are logged and stored indefinitely. Please refrain from doing so."

  /** A line of the edit audit: the mentions added, or the mentions removed. */
  datatype MentionLine = AddedLine(users: set<User>) | RemovedLine(users: set<User>)

  datatype Entry =
    | EditedEntry(author: User, channel: Snowflake, messageId: Snowflake, oldContent: string)
    | DeletedEntry(author: User, channel: Snowflake, messageId: Snowflake,
                   content: Option<string>, repliedTo: Option<User>)
    | GhostPingOnDelete(author: User, channel: Snowflake, messageId: Snowflake, mentioned: seq<User>)
    | GhostPingOnEdit(author: User, channel: Snowflake, messageId: Snowflake, lines: seq<MentionLine>)

  /** What a handler does: post an entry to the log channel, send a plain
      message to a channel, or stop on an exception it does not catch. */
  datatype Effect = Log(entry: Entry) | Say(channel: Snowflake, text: string) | Unhandled(error: string)

  /** `detect_ghost_ping`: audit a deleted message that mentioned someone. */
  function DetectGhostPing(m: Message, logReachable: bool): (r: Option<Entry>)
    ensures r.Some? <==> |m.mentions| > 0 && logReachable
    ensures r.Some? ==> r.value.GhostPingOnDelete? && r.value.mentioned == m.mentions
                        && r.value.author == m.author && r.value.messageId == m.id
                        && r.value.channel == m.channel
  {
    if |m.mentions| == 0 then None
    else if !logReachable then None
    else Some(GhostPingOnDelete(m.author, m.channel, m.id, m.mentions))
  }

  /** The lines of the edit audit: each present only when its set is non-empty. */
  function MentionLines(added: set<User>, removed: set<User>): (r: seq<MentionLine>)
    ensures AddedLine(added) in r <==> added != {}
    ensures RemovedLine(removed) in r <==> removed != {}
    ensures forall l :: l in r ==> l == AddedLine(added) || l == RemovedLine(removed)
    ensures |r| >= 1 <==> added != {} || removed != {}
  {
    (if added != {} then [AddedLine(added)] else [])
    + (if removed != {} then [RemovedLine(removed)] else [])
  }

  /** `detect_ghost_ping_in_edit`: audit an edit that changed the set of mentions. */
  function DetectGhostPingInEdit(before: Message, after: Message, logReachable: bool): (r: Option<Entry>)
    ensures r.Some? <==> logReachable && MentionSet(before) != MentionSet(after)
    ensures r.Some? ==> r.value.GhostPingOnEdit? && 1 <= |r.value.lines| <= 2
    ensures r.Some? ==> forall l :: l in r.value.lines ==>
              l == AddedLine(MentionSet(after) - MentionSet(before))
              || l == RemovedLine(MentionSet(before) - MentionSet(after))
    ensures r.Some? ==> r.value.lines == MentionLines(MentionSet(after) - MentionSet(before),
                                                      MentionSet(before) - MentionSet(after))
    ensures r.Some? ==> r.value.author == before.author && r.value.messageId == before.id
                        && r.value.channel == before.channel
  {
    var b, a := MentionSet(before), MentionSet(after);
    if b == a then None
    else
      var added, removed := a - b, b - a;
      EditDifferenceIsSymmetric(b, a);
      if !logReachable then None
      else Some(GhostPingOnEdit(before.author, before.channel, before.id, MentionLines(added, removed)))
  }

  /** The two differences split the symmetric difference of the mention sets:
      they are disjoint, together they are exactly the users mentioned on one
      side only, and both are empty exactly when the sets are equal. */
  lemma EditDifferenceIsSymmetric(b: set<User>, a: set<User>)
    ensures (a - b) !! (b - a)
    ensures (a - b) + (b - a) == (a + b) - (a * b)
    ensures (a - b) + (b - a) == {} <==> a == b
  {
    if (a - b) + (b - a) == {} {
      assert forall u :: u in a ==> u in b;
      assert forall u :: u in b ==> u in a;
    }
  }

  /** `handle_message_edit`: log the old text unless the log channel is
      missing, the old text is empty, or the new text is non-empty and equal
      to it; then run the edit ghost-ping audit. */
  function HandleMessageEdit(before: Message, after: Message, logReachable: bool): (r: seq<Effect>)
    ensures |r| > 0 <==> logReachable && before.content != "" && after.content != before.content
    ensures |r| > 0 ==> r[0] == Log(EditedEntry(before.author, before.channel, before.id, before.content))
    ensures |r| == 2 <==> |r| > 0 && MentionSet(before) != MentionSet(after)
    ensures |r| == 2 ==> r[1] == Log(DetectGhostPingInEdit(before, after, logReachable).value)
    ensures |r| <= 2
  {
    if !logReachable then []
    else if before.content == "" then []
    else if after.content != "" && after.content == before.content then []
    else
      [Log(EditedEntry(before.author, before.channel, before.id, before.content))]
      + match DetectGhostPingInEdit(before, after, logReachable)
        case Some(e) => [Log(e)]
        case None => []
  }

  function CountGhostPings(effects: seq<Effect>): nat
    decreases |effects|
  {
    if effects == [] then 0
    else (if effects[0].Log? && effects[0].entry.GhostPingOnDelete? then 1 else 0)
         + CountGhostPings(effects[1..])
  }

  lemma {:induction false} CountGhostPingsAppend(a: seq<Effect>, b: seq<Effect>)
    ensures CountGhostPings(a + b) == CountGhostPings(a) + CountGhostPings(b)
    decreases |a|
  {
    if a == [] {
      assert a + b == b;
    } else {
      assert (a + b)[1..] == a[1..] + b;
      CountGhostPingsAppend(a[1..], b);
    }
  }

  const SpecialReply := " I thought we had something special going on, why did you delete your message?"

  /** The log of a user's deleted message once the replied-to message, if
      any, was fetched: the deletion entry first, then the ghost-ping audit
      when the message mentioned someone, then the closing message when the
      bot had answered it. */
  function DeletionLog(m: Message, referenced: Fetch<Message>, botReplied: bool): (r: seq<Effect>)
    requires m.reference.None? || referenced.Found?
    ensures |r| >= 1
    ensures r[0] == Log(DeletedEntry(m.author, m.channel, m.id,
                                     if m.content != "" then Some(m.content) else None,
                                     if m.reference.Some? then Some(referenced.value.author) else None))
    ensures forall e :: e in r && e.Log? && e.entry.DeletedEntry? ==> e == r[0]
    ensures CountGhostPings(r) == if |m.mentions| > 0 then 1 else 0
    ensures |m.mentions| > 0 ==> Log(DetectGhostPing(m, true).value) in r
    ensures Say(m.channel, UserMention(m.author.id) + SpecialReply) in r <==> botReplied
    ensures botReplied ==> r[|r| - 1] == Say(m.channel, UserMention(m.author.id) + SpecialReply)
    ensures |r| == 1 + (if |m.mentions| > 0 then 1 else 0) + (if botReplied then 1 else 0)
  {
    var content := if m.content != "" then Some(m.content) else None;
    var replied := if m.reference.Some? then Some(referenced.value.author) else None;
    var logged := [Log(DeletedEntry(m.author, m.channel, m.id, content, replied))];
    var audit := match DetectGhostPing(m, true)
      case Some(e) => [Log(e)]
      case None => [];
    var special := if botReplied then [Say(m.channel, UserMention(m.author.id) + SpecialReply)] else [];
    CountGhostPingsAppend(logged, audit);
    CountGhostPingsAppend(logged + audit, special);
    logged + audit + special
  }

  /** `handle_message_delete`. `referenced` is the outcome of fetching the
      message replied to; the fetch is not guarded, so a failure stops the
      handler before anything is logged. `botReplied` is the answer of
      `was_message_replied_by_bot`. */
  function HandleMessageDelete(m: Message, botId: Snowflake, logReachable: bool,
                               referenced: Fetch<Message>, botReplied: bool): (r: seq<Effect>)
    ensures !logReachable ==> r == []
    ensures m.author.id == botId && m.channel != BotLog ==> r == []
    ensures m.author.id == botId && m.channel == BotLog && logReachable ==> r == [Say(BotLog, LogDeletionWarning)]
    ensures (exists e :: e in r && e.Log? && e.entry.DeletedEntry?) <==>
              logReachable && m.author.id != botId && (m.reference.None? || referenced.Found?)
    ensures forall e :: e in r && e.Log? && e.entry.DeletedEntry? ==>
              (e.entry.content.Some? <==> m.content != "")
    ensures CountGhostPings(r) == if logReachable && m.author.id != botId && |m.mentions| > 0
                                     && (m.reference.None? || referenced.Found?) then 1 else 0
    ensures logReachable && m.author.id != botId && (m.reference.None? || referenced.Found?) && |m.mentions| > 0 ==>
              Log(DetectGhostPing(m, true).value) in r
    ensures forall e :: e in r && e.Log? && e.entry.DeletedEntry? ==>
              && e.entry.author == m.author && e.entry.messageId == m.id
              && (m.reference.None? ==> e.entry.repliedTo.None?)
              && (m.reference.Some? ==> referenced.Found? && e.entry.repliedTo == Some(referenced.value.author))
    ensures m.author.id == botId ==> forall e :: e in r ==> e == Say(BotLog, LogDeletionWarning)
    ensures m.author.id != botId ==>
              (Say(m.channel, UserMention(m.author.id) + SpecialReply) in r <==>
                 botReplied && logReachable && (m.reference.None? || referenced.Found?))
    ensures botReplied && logReachable && m.author.id != botId && (m.reference.None? || referenced.Found?) ==>
              r[|r| - 1] == Say(m.channel, UserMention(m.author.id) + SpecialReply)
    ensures logReachable && m.author.id != botId && (m.reference.None? || referenced.Found?) ==>
              r == DeletionLog(m, referenced, botReplied)
    ensures logReachable && m.author.id != botId && m.reference.Some? && !referenced.Found? ==>
              |r| == 1 && r[0].Unhandled?
  {
    if !logReachable then []
    else if m.author.id == botId && m.channel != BotLog then []
    else if m.author.id == botId then
      [Say(m.channel, LogDeletionWarning)]
    else if m.reference.Some? && !referenced.Found? then [Unhandled("exception from fetch_message")]
    else DeletionLog(m, referenced, botReplied)
  }
}

=== FILE: cooldown.dfy ===
/** The per-user cooldown of `handle_bot_mention`
    (bot/events_handlers/message_events.py): at most one use per 60 seconds
    unless the user has the staff role. `time.time()` is the integer `now`. */
module Cooldown {

  type UserId = nat

  const Window := 60

  /** `MENTION_COOLDOWNS`: user id to the timestamps of accepted uses. */
  type Cooldowns = map<UserId, seq<int>>

  function Lookup(cd: Cooldowns, user: UserId): seq<int> {
    if user in cd then cd[user] else []
  }

  /** `[t for t in timestamps if now - t < 60]`. */
  function Prune(ts: seq<int>, now: int): (r: seq<int>)
    ensures |r| <= |ts|
    ensures forall t :: t in r <==> t in ts && now - t < Window
    decreases |ts|
  {
    if ts == [] then []
    else
      var rest := Prune(ts[1..], now);
      if now - ts[0] < Window then [ts[0]] + rest else rest
  }

  /** Filtering keeps order and multiplicity: it distributes over concatenation. */
  lemma {:induction false} PruneAppend(a: seq<int>, b: seq<int>, now: int)
    ensures Prune(a + b, now) == Prune(a, now) + Prune(b, now)
    decreases |a|
  {
    if a == [] {
      assert a + b == b;
    } else {
      assert (a + b)[0] == a[0];
      assert (a + b)[1..] == a[1..] + b;
      PruneAppend(a[1..], b, now);
    }
  }

  /** Some timestamp in `ts` is less than `Window` seconds before `now`. */
  predicate HasRecentUse(ts: seq<int>, now: int) {
    exists i :: 0 <= i < |ts| && now - ts[i] < Window
  }

  lemma {:induction false} PruneEmptyIff(ts: seq<int>, now: int)
    ensures Prune(ts, now) == [] <==> !HasRecentUse(ts, now)
    decreases |ts|
  {
    if ts != [] {
      PruneEmptyIff(ts[1..], now);
      if HasRecentUse(ts[1..], now) {
        var i :| 0 <= i < |ts[1..]| && now - ts[1..][i] < Window;
        assert now - ts[i + 1] < Window;
      }
      if HasRecentUse(ts, now) && now - ts[0] >= Window {
        var i :| 0 <= i < |ts| && now - ts[i] < Window;
        assert now - ts[1..][i - 1] < Window;
      }
    }
  }

  datatype Verdict = TooQuickly | Allowed

  datatype Checked = Checked(verdict: Verdict, cooldowns: Cooldowns)

  /** The cooldown block: prune, reject a non-staff user who still has a
      recent use, otherwise record `now` after the pruned timestamps. */
  function Check(cd: Cooldowns, user: UserId, now: int, isStaff: bool): (c: Checked)
    ensures c.verdict == TooQuickly <==> !isStaff && HasRecentUse(Lookup(cd, user), now)
    ensures c.verdict == TooQuickly ==> c.cooldowns == cd
    ensures c.verdict == Allowed ==>
              && c.cooldowns.Keys == cd.Keys + {user}
              && (forall u :: u in cd && u != user ==> c.cooldowns[u] == cd[u])
              && |c.cooldowns[user]| >= 1
              && c.cooldowns[user][|c.cooldowns[user]| - 1] == now
              && c.cooldowns[user][..|c.cooldowns[user]| - 1] == Prune(Lookup(cd, user), now)
  {
    var ts := Lookup(cd, user);
    var kept := Prune(ts, now);
    PruneEmptyIff(ts, now);
    if |kept| >= 1 && !isStaff then
      Checked(TooQuickly, cd)
    else
      var stored := kept + [now];
      assert stored[..|kept|] == kept;
      Checked(Allowed, cd[user := stored])
  }

  /** A non-staff user who gets through holds exactly one timestamp: `now`. */
  lemma NonStaffKeepsOneStamp(cd: Cooldowns, user: UserId, now: int)
    requires Check(cd, user, now, false).verdict == Allowed
    ensures Check(cd, user, now, false).cooldowns[user] == [now]
  {
  }

  /** After an accepted use at `t1`, the same non-staff user is refused at
      every `t2` before `t1 + 60`, and accepted again from `t1 + 60` on. */
  lemma {:induction false} OneUsePerWindow(cd: Cooldowns, user: UserId, t1: int, t2: int)
    requires Check(cd, user, t1, false).verdict == Allowed
    ensures t2 < t1 + Window ==>
              Check(Check(cd, user, t1, false).cooldowns, user, t2, false).verdict == TooQuickly
    ensures t2 >= t1 + Window ==>
              Check(Check(cd, user, t1, false).cooldowns, user, t2, false).verdict == Allowed
  {
    var cd1 := Check(cd, user, t1, false).cooldowns;
    NonStaffKeepsOneStamp(cd, user, t1);
    assert Lookup(cd1, user) == [t1];
    if t2 < t1 + Window {
      assert t2 - Lookup(cd1, user)[0] < Window;
    }
  }

  /** Staff are never refused. */
  lemma StaffNeverRefused(cd: Cooldowns, user: UserId, now: int)
    ensures Check(cd, user, now, true).verdict == Allowed
  {
  }
}

=== FILE: dispatch.dfy ===
/** `handle_message` and `handle_bot_mention`
    (bot/events_handlers/message_events.py): the order in which an incoming
    message meets the bot's checks, and the actions each check takes.

    Platform calls are emitted as `Action` values. The module-level state
    (the cooldown map, the two last-response times) and the database are an
    explicit `State`. Lookups on the platform (the author's roles and
    permissions, channel histories, the replied-to message) are the `Env`.

    Two helpers are called with more arguments than they declare:
    `timeout_member(member)` (bot/utils.py) receives a duration and a reason,
    and `forward_to_google_api(prompt)` (bot/ai/handle_request.py) receives
    five arguments. In Python each such call raises TypeError. `Calls`
    selects between the code as written (`AsWritten`) and the evidently
    intended calls (`Intended`); `HandleMessage` is the intended one. */
module Dispatch {
  import opened Wrappers
  import opened Text
  import opened Platform
  import opened Attachments
  import Store
  import Cooldown
  import Throttle
  import Duplicate

  const GeneralChannel: Snowflake := 1110531063744303138
  const FailedEmbedMessage := "https://cdn.discordapp.com/attachments/1112049391482703873/1375848830175547482/download_3.png"
  const SpamRoleId: Snowflake := 1350511935677927514
  const AdminRoleId: Snowflake := 1112364483915042908
  const GrokRoleId: Snowflake := 1362837967919386916
  const AllowedChannels: set<Snowflake> := {1112048063448617142, 1119371841711112314}

  const DmWarning := "If you DM this bot again, I will carpet-bomb your house."
  const WrongChannelReply := "The AI cannot used in this channel."
  const TooQuicklyReply := "You are using this feature too quickly. Please wait before trying again."
  const SpamMentionReason := "Spamming mentions"
  const TorrentReason := "Torrents"

  /** `timeout_member(member)` always times out for one minute with this reason. */
  const DefaultTimeout := Minutes(1)
  const DefaultReason := "Requested by the bot"

  const TimeoutArityError := "TypeError: timeout_member() takes 1 positional argument but 3 were given"
  const AiArityError := "TypeError: forward_to_google_api() takes 1 positional argument but 5 were given"

  datatype Calls = AsWritten | Intended

  datatype Action =
    | Send(channel: Snowflake, text: string)         // message.channel.send(...)
    | Reply(text: string)                            // message.reply(..., mention_author=True)
    | Timeout(user: Snowflake, seconds: int, reason: string)
    | DeleteMessage                                  // message.delete()
    | AddRole(user: Snowflake, role: Snowflake)      // member.add_roles(...)
    | ForwardToAI(image: Option<ImageRef>, replyTo: Option<Snowflake>, noContext: bool)
    | Unhandled(error: string)                       // an exception escapes the handler

  datatype State = State(
    cooldowns: Cooldown.Cooldowns,
    crazyLast: Option<int>,
    hateMeLast: Option<int>,
    db: Store.Db)

  /** `now` is `time.time()` and `aware_utcnow()` (whole seconds), `nowIso`
      its ISO form stored in the database. `authorRoles` and
      `canMentionEveryone` describe the author as a guild member; `channels`
      are the guild's text channels with their histories; `referenced` is the
      outcome of fetching the message replied to. */
  datatype Env = Env(
    botId: Snowflake,
    now: int,
    nowIso: string,
    authorRoles: set<Snowflake>,
    canMentionEveryone: bool,
    channels: seq<Duplicate.Channel>,
    referenced: Fetch<Message>)

  datatype Step = Step(actions: seq<Action>, state: State)

  /** `a` followed by `b`, unless `a` ended in an exception. */
  function Then(a: seq<Action>, b: seq<Action>): (r: seq<Action>)
    ensures a != [] && a[|a| - 1].Unhandled? ==> r == a
    ensures (a == [] || !a[|a| - 1].Unhandled?) ==> r == a + b
  {
    if a != [] && a[|a| - 1].Unhandled? then a else a + b
  }

  /** `timeout_member(member, duration, reason)`. */
  function TimeoutWith(calls: Calls, user: Snowflake, seconds: int, reason: string): seq<Action> {
    match calls
    case AsWritten => [Unhandled(TimeoutArityError)]
    case Intended => [Timeout(user, seconds, reason)]
  }

  predicate MentionsBot(m: Message, botId: Snowflake) {
    exists i :: 0 <= i < |m.mentions| && m.mentions[i].id == botId
  }

  predicate IsBroadcast(content: string) {
    Contains(content, "@everyone") || Contains(content, "@here")
  }

  /** The reply to a broadcast ping; the role mention `<@&…>` of the spam
      role is written out. */
  const BroadcastReply := "Dink Donk! Time to ping everyone! <@&1350511935677927514>"

  function DuplicateWarning(authorName: string, channel: Snowflake): string {
    "Hey " + authorName + ", you've already sent this message in " + ChannelMention(channel) + "!"
  }

  /** The image and the replied-to message handed to the AI: the message's
      own first image, else the first image of the replied-to message when
      that could be fetched (every fetch error is caught). */
  function AiInput(cc: CharClasses, m: Message, referenced: Fetch<Message>): (r: (Option<ImageRef>, Option<Snowflake>))
    ensures FirstImage(cc, m.attachments).Some? ==> r.0 == FirstImage(cc, m.attachments)
    ensures r.1.Some? <==> m.reference.Some? && referenced.Found?
    ensures r.0.None? <==>
              FirstImage(cc, m.attachments).None?
              && (r.1.None? || FirstImage(cc, referenced.value.attachments).None?)
    ensures r.1 == if m.reference.Some? && referenced.Found? then Some(referenced.value.id) else None
    ensures FirstImage(cc, m.attachments).None? && m.reference.Some? && referenced.Found? ==>
              r.0 == FirstImage(cc, referenced.value.attachments)
  {
    var own := FirstImage(cc, m.attachments);
    if m.reference.None? || !referenced.Found? then (own, None)
    else (if own.Some? then own else FirstImage(cc, referenced.value.attachments), Some(referenced.value.id))
  }

  /** `handle_bot_mention`: the channel allow-list, then the cooldown, then
      the call into the AI client. */
  function HandleBotMention(calls: Calls, cc: CharClasses, st: State, env: Env, m: Message, noContext: bool): (s: Step)
    ensures |s.actions| == 1
    ensures DeleteMessage !in s.actions
    ensures s.actions[0].ForwardToAI? ==> calls == Intended && m.channel in AllowedChannels
    ensures m.channel !in AllowedChannels ==> s == Step([Reply(WrongChannelReply)], st)
    ensures s.state.crazyLast == st.crazyLast && s.state.hateMeLast == st.hateMeLast && s.state.db == st.db
    ensures forall u :: u != m.author.id ==> Cooldown.Lookup(s.state.cooldowns, u) == Cooldown.Lookup(st.cooldowns, u)
    ensures var c := Cooldown.Check(st.cooldowns, m.author.id, env.now, AdminRoleId in env.authorRoles);
            m.channel in AllowedChannels ==>
              (s == Step([Reply(TooQuicklyReply)], st) <==> c.verdict == Cooldown.TooQuickly)
    ensures var c := Cooldown.Check(st.cooldowns, m.author.id, env.now, AdminRoleId in env.authorRoles);
            var input := AiInput(cc, m, env.referenced);
            m.channel in AllowedChannels && c.verdict == Cooldown.Allowed ==>
              && s.state == st.(cooldowns := c.cooldowns)
              && s.actions == [if calls == Intended then ForwardToAI(input.0, input.1, noContext)
                               else Unhandled(AiArityError)]
  {
    if m.channel !in AllowedChannels then Step([Reply(WrongChannelReply)], st)
    else
      var c := Cooldown.Check(st.cooldowns, m.author.id, env.now, AdminRoleId in env.authorRoles);
      if c.verdict == Cooldown.TooQuickly then Step([Reply(TooQuicklyReply)], st)
      else
        var (image, replyTo) := AiInput(cc, m, env.referenced);
        var ask := match calls
          case AsWritten => Unhandled(AiArityError)
          case Intended => ForwardToAI(image, replyTo, noContext);
        Step([ask], st.(cooldowns := c.cooldowns))
  }

  /** The checks after the moderation guards: the two throttled responders,
      the duplicate scan, and the reply to a link that did not embed in the
      general channel. */
  function Routine(cc: CharClasses, st: State, env: Env, m: Message): (s: Step)
    ensures forall a :: a in s.actions ==> a.Send? || a.Reply? || a.Timeout?
    ensures s.state.cooldowns == st.cooldowns && s.state.db == st.db
  {
    var crazy := Throttle.Respond(Throttle.CrazyUserId, st.crazyLast, m.author.id, env.now);
    if crazy.fired then Step([Send(m.channel, Throttle.CrazyUrl)], st.(crazyLast := crazy.last))
    else
      var hate := Throttle.Respond(Throttle.HateMeUserId, st.hateMeLast, m.author.id, env.now);
      if hate.fired then Step([Send(m.channel, Throttle.HateMeUrl)], st.(hateMeLast := hate.last))
      else
        var dup := match Duplicate.FirstDuplicate(cc, m, env.channels, env.now)
          case Some(ch) => [Send(m.channel, DuplicateWarning(m.author.name, ch)),
                            Timeout(m.author.id, DefaultTimeout, DefaultReason)]
          case None => [];
        var link := if Contains(m.content, "http") && !m.hasEmbeds && m.channel == GeneralChannel
                    then [Reply(FailedEmbedMessage)] else [];
        Step(dup + link, st)
  }

  /** The moderation guards of `handle_message`, in order: three or more
      mentions, an @everyone/@here ping without the permission, a torrent
      attachment. `None` when none of them applies. */
  function Guard(calls: Calls, st: State, env: Env, m: Message): (r: Option<Step>)
    ensures r.None? <==>
              |m.mentions| < 3 && !(IsBroadcast(m.content) && !env.canMentionEveryone) && !HasTorrent(m.attachments)
    ensures r.Some? ==> forall a :: a in r.value.actions ==> !a.ForwardToAI?
    ensures r.Some? ==> && r.value.state.cooldowns == st.cooldowns
                        && r.value.state.crazyLast == st.crazyLast
                        && r.value.state.hateMeLast == st.hateMeLast
    ensures r.Some? && calls == AsWritten ==>
              && DeleteMessage !in r.value.actions
              && |r.value.actions| >= 1
              && r.value.actions[|r.value.actions| - 1] == Unhandled(TimeoutArityError)
    ensures r.Some? && calls == Intended ==>
              (DeleteMessage in r.value.actions <==>
                 !(|m.mentions| < 3 && IsBroadcast(m.content) && !env.canMentionEveryone))
  {
    if |m.mentions| >= 3 then
      Some(Step(Then(TimeoutWith(calls, m.author.id, Minutes(5), SpamMentionReason), [DeleteMessage]), st))
    else if IsBroadcast(m.content) && !env.canMentionEveryone then
      var hasRole := SpamRoleId in env.authorRoles;
      var grant := if hasRole then [] else [AddRole(m.author.id, SpamRoleId)];
      var db := if hasRole then st.db
                else Store.AddUserToRole(st.db, m.author.id, SpamRoleId, m.author.name, env.nowIso);
      Some(Step(grant + [Reply(BroadcastReply)] + TimeoutWith(calls, m.author.id, Minutes(5), SpamMentionReason),
                st.(db := db)))
    else if HasTorrent(m.attachments) then
      Some(Step(Then(TimeoutWith(calls, m.author.id, Minutes(120), TorrentReason), [DeleteMessage]), st))
    else None
  }

  /** `handle_message` under the given call signatures. */
  function HandleMessageUnder(calls: Calls, cc: CharClasses, st: State, env: Env, m: Message): (s: Step)
    ensures m.author.id == env.botId ==> s == Step([], st)
    ensures m.author.id != env.botId && !m.inGuild ==> s == Step([Send(m.channel, DmWarning)], st)
    ensures DeleteMessage in s.actions ==> calls == Intended && Moderated(env, m) && Guard(calls, st, env, m).Some?
    ensures (exists a :: a in s.actions && a.ForwardToAI?) ==>
              && calls == Intended && m.author.id != env.botId && m.inGuild && m.channel in AllowedChannels
              && (GrokRoleId in m.roleMentions || MentionsBot(m, env.botId))
    ensures m.author.id != env.botId && m.inGuild && (GrokRoleId in m.roleMentions || MentionsBot(m, env.botId)) ==>
              s == HandleBotMention(calls, cc, st, env, m, GrokRoleId in m.roleMentions)
  {
    if m.author.id == env.botId then Step([], st)
    else if !m.inGuild then Step([Send(m.channel, DmWarning)], st)
    else if GrokRoleId in m.roleMentions || MentionsBot(m, env.botId) then
      var s := HandleBotMention(calls, cc, st, env, m, GrokRoleId in m.roleMentions);
      assert s.actions == [s.actions[0]];
      s
    else match Guard(calls, st, env, m)
      case Some(s) => s
      case None => Routine(cc, st, env, m)
  }

  /** `handle_message` with the helpers called as evidently intended. */
  function HandleMessage(cc: CharClasses, st: State, env: Env, m: Message): (s: Step)
    ensures DeleteMessage in s.actions <==>
              Moderated(env, m)
              && (|m.mentions| >= 3 || (!(IsBroadcast(m.content) && !env.canMentionEveryone) && HasTorrent(m.attachments)))
  {
    HandleMessageUnder(Intended, cc, st, env, m)
  }

  /** `handle_message` exactly as written. */
  function HandleMessageAsWritten(cc: CharClasses, st: State, env: Env, m: Message): (s: Step)
    ensures Moderated(env, m)
            && !(|m.mentions| < 3 && !(IsBroadcast(m.content) && !env.canMentionEveryone) && !HasTorrent(m.attachments)) ==>
              |s.actions| >= 1 && s.actions[|s.actions| - 1] == Unhandled(TimeoutArityError)
    ensures Moderated(env, m) && Guard(AsWritten, st, env, m).None? ==> s == HandleMessage(cc, st, env, m)
  {
    HandleMessageUnder(AsWritten, cc, st, env, m)
  }

  /** A guild message that none of the bot-mention paths takes. */
  predicate Moderated(env: Env, m: Message) {
    m.author.id != env.botId && m.inGuild && GrokRoleId !in m.roleMentions && !MentionsBot(m, env.botId)
  }

  /** A guild message mentioning the bot or the AI role: outside the allowed
      channels it only draws the refusal; inside, it draws the "too quickly"
      reply iff the cooldown refuses the author, and otherwise the use is
      recorded and the message goes to the AI. */
  lemma BotMentionOutcomes(cc: CharClasses, st: State, env: Env, m: Message)
    requires m.author.id != env.botId && m.inGuild
    requires GrokRoleId in m.roleMentions || MentionsBot(m, env.botId)
    ensures m.channel !in AllowedChannels ==> HandleMessage(cc, st, env, m) == Step([Reply(WrongChannelReply)], st)
    ensures var c := Cooldown.Check(st.cooldowns, m.author.id, env.now, AdminRoleId in env.authorRoles);
            var input := AiInput(cc, m, env.referenced);
            && (m.channel in AllowedChannels && c.verdict == Cooldown.TooQuickly ==>
                  HandleMessage(cc, st, env, m) == Step([Reply(TooQuicklyReply)], st))
            && (m.channel in AllowedChannels && c.verdict == Cooldown.Allowed ==>
                  HandleMessage(cc, st, env, m)
                  == Step([ForwardToAI(input.0, input.1, GrokRoleId in m.roleMentions)], st.(cooldowns := c.cooldowns)))
  {
    assert HandleMessage(cc, st, env, m) == HandleBotMention(Intended, cc, st, env, m, GrokRoleId in m.roleMentions);
  }

  /** The bot ignores its own messages: no action, no state change. */
  lemma OwnMessagesIgnored(calls: Calls, cc: CharClasses, st: State, env: Env, m: Message)
    requires m.author.id == env.botId
    ensures HandleMessageUnder(calls, cc, st, env, m) == Step([], st)
  {
  }

  /** Three or more mentions: timeout and delete, and the broadcast check is
      never reached, even when the text also pings everyone. */
  lemma MentionSpamComesFirst(cc: CharClasses, st: State, env: Env, m: Message)
    requires Moderated(env, m) && |m.mentions| >= 3
    ensures HandleMessage(cc, st, env, m)
            == Step([Timeout(m.author.id, Minutes(5), SpamMentionReason), DeleteMessage], st)
  {
  }

  /** Fewer than three mentions never trigger the mention guard's deletion. */
  lemma TwoMentionsNotDeleted(cc: CharClasses, st: State, env: Env, m: Message)
    requires Moderated(env, m) && |m.mentions| < 3 && !HasTorrent(m.attachments)
    ensures DeleteMessage !in HandleMessage(cc, st, env, m).actions
  {
    var s := HandleMessage(cc, st, env, m);
    if IsBroadcast(m.content) && !env.canMentionEveryone {
      assert s == Guard(Intended, st, env, m).value;
    } else {
      assert s == Routine(cc, st, env, m);
    }
  }


  /** An unauthorised broadcast ping: the spam role and its database row are
      added only when the member lacks the role; the reply and the timeout
      follow either way, the message stays, and nothing else runs. */
  lemma BroadcastGuard(cc: CharClasses, st: State, env: Env, m: Message)
    requires Moderated(env, m) && |m.mentions| < 3
    requires IsBroadcast(m.content) && !env.canMentionEveryone
    ensures var s := HandleMessage(cc, st, env, m);
            var hasRole := SpamRoleId in env.authorRoles;
            && s == Step((if hasRole then [] else [AddRole(m.author.id, SpamRoleId)])
                           + [Reply(BroadcastReply), Timeout(m.author.id, Minutes(5), SpamMentionReason)],
                         st.(db := if hasRole then st.db
                                   else Store.AddUserToRole(st.db, m.author.id, SpamRoleId, m.author.name, env.nowIso)))
            && (AddRole(m.author.id, SpamRoleId) in s.actions <==> !hasRole)
            && (hasRole ==> s.state == st)
            && (!hasRole ==> Store.UserHasRole(s.state.db, m.author.id))
            && DeleteMessage !in s.actions
  {
    assert HandleMessage(cc, st, env, m) == Guard(Intended, st, env, m).value;
  }

  /** A torrent attachment gets the author a two-hour timeout and the message
      deleted; nothing else runs. */
  lemma TorrentGuard(cc: CharClasses, st: State, env: Env, m: Message)
    requires Moderated(env, m) && |m.mentions| < 3
    requires !(IsBroadcast(m.content) && !env.canMentionEveryone)
    requires HasTorrent(m.attachments)
    ensures HandleMessage(cc, st, env, m)
            == Step([Timeout(m.author.id, Minutes(120), TorrentReason), DeleteMessage], st)
  {
  }

  /** Past the guards, the first 8-hour responder wins: when it fires for the
      author, its one message is the whole answer and only its time changes. */
  lemma CrazyComesFirst(cc: CharClasses, st: State, env: Env, m: Message)
    requires Moderated(env, m) && |m.mentions| < 3
    requires !(IsBroadcast(m.content) && !env.canMentionEveryone) && !HasTorrent(m.attachments)
    requires Throttle.Respond(Throttle.CrazyUserId, st.crazyLast, m.author.id, env.now).fired
    ensures HandleMessage(cc, st, env, m)
            == Step([Send(m.channel, Throttle.CrazyUrl)], st.(crazyLast := Some(env.now)))
  {
    assert HandleMessage(cc, st, env, m) == Routine(cc, st, env, m);
  }

  /** The second responder is consulted only when the first stays silent, and
      then answers alone in the same way. */
  lemma HateMeComesNext(cc: CharClasses, st: State, env: Env, m: Message)
    requires Moderated(env, m) && |m.mentions| < 3
    requires !(IsBroadcast(m.content) && !env.canMentionEveryone) && !HasTorrent(m.attachments)
    requires !Throttle.Respond(Throttle.CrazyUserId, st.crazyLast, m.author.id, env.now).fired
    requires Throttle.Respond(Throttle.HateMeUserId, st.hateMeLast, m.author.id, env.now).fired
    ensures HandleMessage(cc, st, env, m)
            == Step([Send(m.channel, Throttle.HateMeUrl)], st.(hateMeLast := Some(env.now)))
  {
    assert HandleMessage(cc, st, env, m) == Routine(cc, st, env, m);
  }

  /** Past the guards and the responders: a copy found by the duplicate scan
      brings exactly one warning naming the first flagging channel and one
      one-minute timeout, and the link reply follows iff its condition holds. */
  lemma DuplicateWarnedOnce(cc: CharClasses, st: State, env: Env, m: Message)
    requires Moderated(env, m) && |m.mentions| < 3
    requires !(IsBroadcast(m.content) && !env.canMentionEveryone) && !HasTorrent(m.attachments)
    requires !Throttle.Respond(Throttle.CrazyUserId, st.crazyLast, m.author.id, env.now).fired
    requires !Throttle.Respond(Throttle.HateMeUserId, st.hateMeLast, m.author.id, env.now).fired
    ensures var s := HandleMessage(cc, st, env, m);
            var dup := Duplicate.FirstDuplicate(cc, m, env.channels, env.now);
            var link := Contains(m.content, "http") && !m.hasEmbeds && m.channel == GeneralChannel;
            && s.state == st
            && s.actions == (if dup.Some? then [Send(m.channel, DuplicateWarning(m.author.name, dup.value)),
                                                Timeout(m.author.id, DefaultTimeout, DefaultReason)]
                             else [])
                            + (if link then [Reply(FailedEmbedMessage)] else [])
            && (dup.Some? <==> |s.actions| >= 2 && s.actions[1] == Timeout(m.author.id, DefaultTimeout, DefaultReason))
            && (Reply(FailedEmbedMessage) in s.actions <==> link)
  {
    assert HandleMessage(cc, st, env, m) == Routine(cc, st, env, m);
  }

  /** The state a message can change: the author's own cooldown entry, the
      last-response time of the responder that fired, and the spam-role row. */
  lemma StateFrame(calls: Calls, cc: CharClasses, st: State, env: Env, m: Message)
    ensures var s := HandleMessageUnder(calls, cc, st, env, m).state;
            && (forall u :: u != m.author.id ==> Cooldown.Lookup(s.cooldowns, u) == Cooldown.Lookup(st.cooldowns, u))
            && (s.crazyLast == st.crazyLast || s.crazyLast == Some(env.now))
            && (s.hateMeLast == st.hateMeLast || s.hateMeLast == Some(env.now))
            && (s.db == st.db || s.db == Store.AddUserToRole(st.db, m.author.id, SpamRoleId, m.author.name, env.nowIso))
  {
    var s := HandleMessageUnder(calls, cc, st, env, m);
    if Moderated(env, m) && Guard(calls, st, env, m).None? {
      assert s == Routine(cc, st, env, m);
    }
  }


  /** On a moderated message the code as written departs from the intended
      handler only at the `timeout_member` calls: with no guard applying the
      two agree; the mention-spam and torrent guards stop at the call; the
      broadcast guard grants the role, stores its row and replies as intended
      and raises where the timeout would be. */
  lemma AsWrittenOffArityPaths(cc: CharClasses, st: State, env: Env, m: Message)
    requires Moderated(env, m)
    ensures Guard(AsWritten, st, env, m).None? ==>
              HandleMessageAsWritten(cc, st, env, m) == HandleMessage(cc, st, env, m)
    ensures |m.mentions| >= 3 || (!(IsBroadcast(m.content) && !env.canMentionEveryone) && HasTorrent(m.attachments)) ==>
              HandleMessageAsWritten(cc, st, env, m) == Step([Unhandled(TimeoutArityError)], st)
    ensures var a := HandleMessageAsWritten(cc, st, env, m);
            var i := HandleMessage(cc, st, env, m);
            |m.mentions| < 3 && IsBroadcast(m.content) && !env.canMentionEveryone ==>
              && a.state == i.state
              && |i.actions| >= 1
              && a.actions == i.actions[..|i.actions| - 1] + [Unhandled(TimeoutArityError)]
  {
  }

  /** As written, no message is ever deleted and nothing reaches the AI:
      every path to a deletion first calls `timeout_member` with three
      arguments, and the AI path calls `forward_to_google_api` with five. */
  lemma AsWrittenNeverDeletesOrForwards(cc: CharClasses, st: State, env: Env, m: Message)
    ensures DeleteMessage !in HandleMessageAsWritten(cc, st, env, m).actions
    ensures forall a :: a in HandleMessageAsWritten(cc, st, env, m).actions ==> !a.ForwardToAI?
  {
    var s := HandleMessageAsWritten(cc, st, env, m);
    if Moderated(env, m) {
      if Guard(AsWritten, st, env, m).None? {
        assert s == Routine(cc, st, env, m);
      } else {
        assert s == Guard(AsWritten, st, env, m).value;
      }
    }
  }


  /** A concrete torrent post that, as written, stops at the timeout call with
      a TypeError and stays in the channel, while the intended handler
      deletes it. */
  lemma TorrentCounterexample()
    ensures var m := Message(1, User(7, "poster"), GeneralChannel, true, "", 0, [], {},
                             [Attachment("movie.torrent", "")], false, None);
            var env := Env(0, 0, "", {}, true, [], NotFound);
            var st := State(map[], None, None, Store.Db([], map[], map[], []));
            var cc := CharClasses(c => false, c => false, c => false, s => s);
            && HandleMessageAsWritten(cc, st, env, m).actions == [Unhandled(TimeoutArityError)]
            && HandleMessage(cc, st, env, m).actions == [Timeout(7, Minutes(120), TorrentReason), DeleteMessage]
  {
    var m := Message(1, User(7, "poster"), GeneralChannel, true, "", 0, [], {},
                     [Attachment("movie.torrent", "")], false, None);
    assert IsTorrent(m.attachments[0]) by {
      assert "movie.torrent"[13 - 8..] == ".torrent";
    }
    assert !IsBroadcast(m.content);
  }

  /** A staff member's mention of the AI role in an allowed channel is
      forwarded without context, with the image and replied-to message of
      `AiInput`, and the cooldown records the use. */
  lemma IntendedMentionForwarded(cc: CharClasses, st: State, env: Env, m: Message)
    requires m.author.id != env.botId && m.inGuild && GrokRoleId in m.roleMentions
    requires m.channel in AllowedChannels && AdminRoleId in env.authorRoles
    ensures var s := HandleMessage(cc, st, env, m);
            && s.actions == [ForwardToAI(AiInput(cc, m, env.referenced).0, AiInput(cc, m, env.referenced).1, true)]
            && Cooldown.Lookup(s.state.cooldowns, m.author.id) != []
  {
    Cooldown.StaffNeverRefused(st.cooldowns, m.author.id, env.now);
  }

  /** The same message as written: the cooldown is spent, then the call into
      the AI client raises. */
  lemma AiForwardingCounterexample(cc: CharClasses, st: State, env: Env, m: Message)
    requires m.author.id != env.botId && m.inGuild && GrokRoleId in m.roleMentions
    requires m.channel in AllowedChannels && AdminRoleId in env.authorRoles
    ensures var s := HandleMessageAsWritten(cc, st, env, m);
            && s.actions == [Unhandled(AiArityError)]
            && Cooldown.Lookup(s.state.cooldowns, m.author.id) != []
  {
    Cooldown.StaffNeverRefused(st.cooldowns, m.author.id, env.now);
  }
}

=== FILE: duplicate.dfy ===
/** `is_message_a_duplicate` (bot/events_handlers/message_events.py): scan the
    five newest messages of every other text channel for an earlier copy of a
    new message by the same author, and name the first channel that has one.
    The histories are inputs (newest first); one `now` stands for the clock. */
module Duplicate {
  import opened Wrappers
  import opened Text
  import opened Platform

  const HistoryLimit: nat := 5
  const DuplicateWindow := Minutes(5)

  /** A text channel of the guild with the outcome of `channel.history(limit=5)`;
      NotFound and Forbidden are HTTPExceptions too, and all of them skip the channel. */
  datatype Channel = Channel(id: Snowflake, history: Fetch<seq<Message>>)

  /** What `history(limit=5)` yields from the full newest-first history. */
  function Recent(h: seq<Message>): (r: seq<Message>)
    ensures |r| <= HistoryLimit
  {
    if |h| <= HistoryLimit then h else h[..HistoryLimit]
  }

  /** `cand` is flagged as an earlier copy of `m`: the candidate carries no
      embed, the new message no attachment and some non-blank text, the
      authors and texts are equal, and the copy is less than 5 minutes old. */
  predicate IsCopyOf(cc: CharClasses, m: Message, cand: Message, now: int) {
    && !cand.hasEmbeds
    && |m.attachments| == 0
    && !IsBlank(cc, m.content)
    && cand.author.id == m.author.id
    && cand.content == m.content
    && now - cand.createdAt < DuplicateWindow
  }

  /** Scanning `ch` finds a copy: it is not the message's own channel, its
      history could be read, and one of its five newest messages is a copy. */
  predicate Flags(cc: CharClasses, m: Message, ch: Channel, now: int) {
    && ch.id != m.channel
    && ch.history.Found?
    && exists k :: 0 <= k < |Recent(ch.history.value)| && IsCopyOf(cc, m, Recent(ch.history.value)[k], now)
  }

  /** The channel named in the warning: the first one, in guild order, that flags. */
  function FirstDuplicate(cc: CharClasses, m: Message, channels: seq<Channel>, now: int): (r: Option<Snowflake>)
    ensures r.None? <==> forall i :: 0 <= i < |channels| ==> !Flags(cc, m, channels[i], now)
    ensures r.Some? ==> exists i :: 0 <= i < |channels| && Flags(cc, m, channels[i], now)
                          && r.value == channels[i].id
                          && forall j :: 0 <= j < i ==> !Flags(cc, m, channels[j], now)
    ensures r.Some? ==> r.value != m.channel
    decreases |channels|
  {
    if channels == [] then None
    else if Flags(cc, m, channels[0], now) then Some(channels[0].id)
    else
      var r := FirstDuplicate(cc, m, channels[1..], now);
      assert forall i :: 1 <= i < |channels| ==> channels[i] == channels[1..][i - 1];
      r
  }

  /** The first flagging channel is the one reported. */
  lemma {:induction false} FirstDuplicateAt(cc: CharClasses, m: Message, channels: seq<Channel>, now: int, i: int)
    requires 0 <= i < |channels| && Flags(cc, m, channels[i], now)
    requires forall j :: 0 <= j < i ==> !Flags(cc, m, channels[j], now)
    ensures FirstDuplicate(cc, m, channels, now) == Some(channels[i].id)
    decreases i
  {
    if i > 0 {
      assert channels[1..][i - 1] == channels[i];
      FirstDuplicateAt(cc, m, channels[1..], now, i - 1);
    }
  }

  /** The scan as written: channels in order, skipping the own channel and
      unreadable ones, messages newest first, returning at the first copy. */
  method IsMessageADuplicate(cc: CharClasses, m: Message, channels: seq<Channel>, now: int)
    returns (flagged: Option<Snowflake>)
    ensures flagged == FirstDuplicate(cc, m, channels, now)
  {
    var i := 0;
    while i < |channels|
      invariant 0 <= i <= |channels|
      invariant forall j :: 0 <= j < i ==> !Flags(cc, m, channels[j], now)
    {
      var ch := channels[i];
      if ch.id != m.channel && ch.history.Found? {
        var recent := Recent(ch.history.value);
        var k := 0;
        while k < |recent|
          invariant 0 <= k <= |recent|
          invariant forall l :: 0 <= l < k ==> !IsCopyOf(cc, m, recent[l], now)
        {
          var msg := recent[k];
          if !msg.hasEmbeds && |m.attachments| == 0 && !IsBlank(cc, m.content)
            && msg.author.id == m.author.id && msg.content == m.content
            && now - msg.createdAt < DuplicateWindow
          {
            FirstDuplicateAt(cc, m, channels, now, i);
            return Some(ch.id);
          }
          k := k + 1;
        }
      }
      i := i + 1;
    }
    return None;
  }

  /** A message with an attachment or with blank text is never flagged. */
  lemma AttachmentOrBlankNeverFlagged(cc: CharClasses, m: Message, channels: seq<Channel>, now: int)
    requires |m.attachments| > 0 || IsBlank(cc, m.content)
    ensures FirstDuplicate(cc, m, channels, now) == None
  {
  }

  /** A same-author copy among the five newest messages of another readable
      channel, less than 5 minutes old, is flagged. */
  lemma RecentCopyFlagged(cc: CharClasses, m: Message, channels: seq<Channel>, now: int, i: int, k: int)
    requires 0 <= i < |channels| && channels[i].id != m.channel && channels[i].history.Found?
    requires 0 <= k < |channels[i].history.value| && k < HistoryLimit
    requires IsCopyOf(cc, m, channels[i].history.value[k], now)
    ensures FirstDuplicate(cc, m, channels, now).Some?
  {
    assert Recent(channels[i].history.value)[k] == channels[i].history.value[k];
    assert Flags(cc, m, channels[i], now);
  }

  /** Scanning a list of channels in two parts: the first part's hit wins. */
  lemma {:induction false} FirstDuplicateAppend(cc: CharClasses, m: Message, a: seq<Channel>, b: seq<Channel>, now: int)
    ensures FirstDuplicate(cc, m, a + b, now) ==
            if FirstDuplicate(cc, m, a, now).Some? then FirstDuplicate(cc, m, a, now)
            else FirstDuplicate(cc, m, b, now)
    decreases |a|
  {
    if a == [] {
      assert a + b == b;
    } else {
      assert (a + b)[0] == a[0];
      assert (a + b)[1..] == a[1..] + b;
      FirstDuplicateAppend(cc, m, a[1..], b, now);
    }
  }

  /** A channel whose history could not be read is skipped and nothing else
      changes: the verdict is that of the scan without it. */
  lemma FailedChannelSkipped(cc: CharClasses, m: Message, channels: seq<Channel>, now: int, i: int)
    requires 0 <= i < |channels| && !channels[i].history.Found?
    ensures FirstDuplicate(cc, m, channels, now) == FirstDuplicate(cc, m, channels[..i] + channels[i + 1..], now)
  {
    var a, c, b := channels[..i], channels[i], channels[i + 1..];
    assert channels == a + ([c] + b);
    FirstDuplicateAppend(cc, m, a, [c] + b, now);
    FirstDuplicateAppend(cc, m, [c], b, now);
    FirstDuplicateAppend(cc, m, a, b, now);
  }
}

=== FILE: member_events.dfy ===
/** The rename decisions of bot/events_handlers/member_events.py: on join and
    on update the bot checks one name and, when it fails the policy, gives the
    member a placeholder nickname. The draw of `random.randint(1, 99)` is an
    input. */
module MemberEvents {
  import opened Wrappers
  import opened Text
  import opened Names

  /** The fields of a guild member the handlers read. `displayName` is the
      library's computed display name, `nick` the guild nickname if any. */
  datatype Member = Member(name: string, displayName: string, nick: Option<string>)

  /** What the handler does: nothing, or `member.edit(nick=...)`. */
  datatype RenameDecision = Keep | Rename(newNick: string)

  /** The policy both handlers apply to the name they check: rename when the
      name is shorter than 3, when one of its first two characters is outside
      the username class, or when it is numeric. */
  function NeedsRename(cc: CharClasses, s: string): (b: bool)
    ensures b <==> |s| < 3 || !UsernameChar(cc, s[0]) || !UsernameChar(cc, s[1]) || IsNumericName(cc, s)
  {
    |s| < 3 || !IsValidUsername(cc, s) || IsNumericName(cc, s)
  }

  /** On join the display name is checked when it is non-empty, else the account name. */
  function JoinNameToCheck(m: Member): (s: string)
    ensures m.displayName != "" ==> s == m.displayName
    ensures m.displayName == "" ==> s == m.name
  {
    if m.displayName != "" then m.displayName else m.name
  }

  /** On update the nickname is checked when it is set and non-empty, else the account name. */
  function UpdateNameToCheck(after: Member): (s: string)
    ensures after.nick.Some? && after.nick.value != "" ==> s == after.nick.value
    ensures after.nick.None? || after.nick.value == "" ==> s == after.name
  {
    match after.nick
    case Some(n) => if n != "" then n else after.name
    case None => after.name
  }

  /** The shared policy of both handlers: rename to a placeholder whose two
      digits read back as the draw exactly when the name fails a check. */
  function Decide(cc: CharClasses, s: string, draw: int): (d: RenameDecision)
    requires 1 <= draw <= 99
    ensures d.Rename? <==> |s| < 3 || !UsernameChar(cc, s[0]) || !UsernameChar(cc, s[1]) || IsNumericName(cc, s)
    ensures d.Rename? ==> && StartsWith(d.newNick, NicknamePrefix)
                          && |d.newNick| == |NicknamePrefix| + 2
                          && AllAsciiDigits(d.newNick[|NicknamePrefix|..])
                          && DecimalValue(d.newNick[|NicknamePrefix|..]) == draw
  {
    if NeedsRename(cc, s) then Rename(GenerateRandomNickname(draw)) else Keep
  }

  /** `handle_member_join`. */
  function HandleMemberJoin(cc: CharClasses, m: Member, draw: int): (d: RenameDecision)
    requires 1 <= draw <= 99
    ensures d.Rename? <==> NeedsRename(cc, JoinNameToCheck(m))
    ensures d.Rename? ==> StartsWith(d.newNick, NicknamePrefix)
  {
    Decide(cc, JoinNameToCheck(m), draw)
  }

  /** `handle_member_update`; only the state after the update is read. */
  function HandleMemberUpdate(cc: CharClasses, before: Member, after: Member, draw: int): (d: RenameDecision)
    requires 1 <= draw <= 99
    ensures d.Rename? <==> NeedsRename(cc, UpdateNameToCheck(after))
    ensures d.Rename? ==> StartsWith(d.newNick, NicknamePrefix)
  {
    Decide(cc, UpdateNameToCheck(after), draw)
  }

  /** The member after the decision is carried out. On `Rename` the guild
      nickname is set, and the display name, which the library derives from
      the nickname when there is one, follows it; the account name stays. */
  function Apply(m: Member, d: RenameDecision): (m': Member)
    ensures d.Keep? ==> m' == m
    ensures d.Rename? ==> m'.nick == Some(d.newNick) && m'.displayName == d.newNick && m'.name == m.name
  {
    match d
    case Keep => m
    case Rename(n) => m.(nick := Some(n), displayName := n)
  }

  /** Every name shorter than three characters is renamed. */
  lemma ShortNamesRenamed(cc: CharClasses, m: Member, draw: int)
    requires 1 <= draw <= 99
    requires |JoinNameToCheck(m)| < 3
    ensures HandleMemberJoin(cc, m, draw).Rename?
  {
  }

  /** A numeric name is renamed whatever its length, although digits pass the
      charset check. */
  lemma NumericNamesRenamed(cc: CharClasses, after: Member, draw: int)
    requires 1 <= draw <= 99
    requires IsNumericName(cc, UpdateNameToCheck(after))
    ensures HandleMemberUpdate(cc, after, after, draw).Rename?
  {
  }

  /** The placeholder nickname itself passes the policy. */
  lemma {:induction false} PlaceholderPasses(cc: CharClasses, draw: int)
    requires AgreesOnAscii(cc)
    requires 1 <= draw <= 99
    ensures !NeedsRename(cc, GenerateRandomNickname(draw))
  {
    var nick := GenerateRandomNickname(draw);
    assert nick[..|NicknamePrefix|] == NicknamePrefix;
    assert nick[0] == 'U' && nick[1] == 'n';
    assert !cc.isNumeric(nick[0]);
  }

  /** Renaming does not loop: the update event caused by the bot's own rename
      leaves the member as they are. */
  lemma RenameSettles(cc: CharClasses, m: Member, draw: int, draw': int)
    requires AgreesOnAscii(cc)
    requires 1 <= draw <= 99 && 1 <= draw' <= 99
    requires HandleMemberJoin(cc, m, draw).Rename?
    ensures var m' := Apply(m, HandleMemberJoin(cc, m, draw));
            HandleMemberUpdate(cc, m, m', draw') == Keep
  {
    var m' := Apply(m, HandleMemberJoin(cc, m, draw));
    assert UpdateNameToCheck(m') == GenerateRandomNickname(draw);
    PlaceholderPasses(cc, draw);
  }
}

=== FILE: names.dfy ===
/** The nickname policy helpers of bot/utils.py: the username character check,
    the numeric-name check and the placeholder nickname. */
module Names {
  import opened Text

  /** One character of the class `[\d\x00-\x7F\xC0-\xFF]`: a Unicode decimal
      digit, an ASCII character, or a code point in 0xC0..0xFF. */
  predicate UsernameChar(cc: CharClasses, c: char) {
    cc.isDecimal(c) || c as int <= 0x7F || 0xC0 <= c as int <= 0xFF
  }

  /** Length of the greedy run of `UsernameChar`s at the start of `s`. */
  function LeadingRun(cc: CharClasses, s: string): (n: nat)
    ensures n <= |s|
    ensures forall i :: 0 <= i < n ==> UsernameChar(cc, s[i])
    ensures n < |s| ==> !UsernameChar(cc, s[n])
    decreases |s|
  {
    if s == [] || !UsernameChar(cc, s[0]) then 0 else 1 + LeadingRun(cc, s[1..])
  }

  /** Two class characters at the start begin a run of at least two. */
  lemma LeadingPairInRun(cc: CharClasses, s: string)
    ensures |s| >= 2 && UsernameChar(cc, s[0]) && UsernameChar(cc, s[1]) ==> LeadingRun(cc, s) >= 2
  {
    if |s| >= 2 {
      assert s[1..][0] == s[1];
    }
  }

  /** `re.match(r"^[\d\x00-\x7F\xC0-\xFF]{2,}", s)` succeeds: the match is
      anchored at the start and needs a run of at least two class characters,
      so exactly the first two characters decide. */
  function IsValidUsername(cc: CharClasses, s: string): (b: bool)
    ensures b <==> |s| >= 2 && UsernameChar(cc, s[0]) && UsernameChar(cc, s[1])
  {
    LeadingPairInRun(cc, s);
    LeadingRun(cc, s) >= 2
  }

  /** Python's `s.isnumeric()`: false on the empty string, otherwise every
      character is numeric. On an ASCII name whose numeric characters are the
      ASCII digits, that is a non-empty string of `0`-`9`. */
  function IsNumericName(cc: CharClasses, s: string): (b: bool)
    ensures b <==> s != [] && forall c :: c in s ==> cc.isNumeric(c)
    ensures AgreesOnAscii(cc) && (forall i :: 0 <= i < |s| ==> s[i] as int < 0x80) ==>
              (b <==> s != [] && AllAsciiDigits(s))
  {
    |s| > 0 && forall i :: 0 <= i < |s| ==> cc.isNumeric(s[i])
  }

  /** Numeric names are closed under concatenation and under splitting:
      joining two non-empty names is numeric iff both parts are. */
  lemma NumericNameConcat(cc: CharClasses, s: string, t: string)
    requires s != [] && t != []
    ensures IsNumericName(cc, s + t) <==> IsNumericName(cc, s) && IsNumericName(cc, t)
  {
  }

  /** Characters after the second never change the charset verdict. */
  lemma LaterCharactersIrrelevant(cc: CharClasses, s: string, t: string)
    requires |s| >= 2 && |t| >= 2 && s[..2] == t[..2]
    ensures IsValidUsername(cc, s) == IsValidUsername(cc, t)
  {
    assert s[0] == s[..2][0] == t[..2][0] == t[0];
    assert s[1] == s[..2][1] == t[..2][1] == t[1];
  }

  const NicknamePrefix := "Unknown Soldier "

  /** `generate_random_nickname()`, with the value of `random.randint(1, 99)`
      passed in as `draw`: the prefix followed by exactly two digits that
      denote the draw, so never "00". */
  function GenerateRandomNickname(draw: int): (nick: string)
    requires 1 <= draw <= 99
    ensures |nick| == |NicknamePrefix| + 2
    ensures StartsWith(nick, NicknamePrefix)
    ensures AllAsciiDigits(nick[|NicknamePrefix|..])
    ensures DecimalValue(nick[|NicknamePrefix|..]) == draw
    ensures nick[|NicknamePrefix|..] != "00"
  {
    var digits := ZeroPad2(draw);
    var nick := NicknamePrefix + digits;
    assert nick[|NicknamePrefix|..] == digits;
    assert "00"[..1] == "0" && "0"[..0] == [];
    assert DecimalValue("00") == 0;
    nick
  }

  /** Different draws give different nicknames. */
  lemma NicknameDeterminesDraw(a: int, b: int)
    requires 1 <= a <= 99 && 1 <= b <= 99
    requires GenerateRandomNickname(a) == GenerateRandomNickname(b)
    ensures a == b
  {
  }
}

=== FILE: platform.dfy ===
/** The chat-platform objects the handlers read, reduced to plain data.
    Timestamps are whole seconds; identifiers are the platform's snowflakes. */
module Platform {
  import opened Wrappers
  import opened Text

  type Snowflake = nat

  /** Users compare by value; the model assumes a user's name does not change
      within one event. */
  datatype User = User(id: Snowflake, name: string)

  datatype Attachment = Attachment(filename: string, url: string)

  /** A chat message as the handlers see it. `reference` is the id of the
      message it replies to; `inGuild` is false for a direct message. */
  datatype Message = Message(
    id: Snowflake,
    author: User,
    channel: Snowflake,
    inGuild: bool,
    content: string,
    createdAt: int,
    mentions: seq<User>,
    roleMentions: set<Snowflake>,
    attachments: seq<Attachment>,
    hasEmbeds: bool,
    reference: Option<Snowflake>)

  /** What fetching a message (or a channel's history) from the platform gives:
      the value, or one of the library's NotFound / Forbidden / HTTPException. */
  datatype Fetch<+T> = Found(value: T) | NotFound | Forbidden | HttpError

  /** The distinct users a message mentions (`set(message.mentions)`). */
  function MentionSet(m: Message): set<User> {
    set u | u in m.mentions
  }

  function Minutes(n: int): int {
    60 * n
  }

  function Hours(n: int): int {
    60 * Minutes(n)
  }

  /** The platform's mention markup for a user (`user.mention`). */
  function UserMention(id: Snowflake): string {
    "<@" + NatToString(id) + ">"
  }

  /** The platform's mention markup for a channel (`channel.mention`). */
  function ChannelMention(id: Snowflake): string {
    "<#" + NatToString(id) + ">"
  }
}

=== FILE: reaction.dfy ===
/** `handle_reaction_add` (bot/events_handlers/reaction_events.py): the
    author of a message the bot answered may remove the answer with a ❌
    reaction within 5 minutes; anyone else's ❌ is taken back. */
module Reaction {
  import opened Wrappers
  import opened Platform

  const CrossMark := "\U{274C}"
  const DeleteWindow := Minutes(5)

  /** A Unicode emoji is its text; a custom emoji never equals a string. */
  datatype Emoji = UnicodeEmoji(text: string) | CustomEmoji(id: Snowflake)

  /** The reaction and the message it was added to. */
  datatype ReactionEvent = ReactionEvent(
    reactor: Snowflake,
    emoji: Emoji,
    messageAuthor: Snowflake,
    messageCreatedAt: int,
    reference: Option<Snowflake>)

  datatype Outcome =
    | Ignored                        // one of the guards returned
    | LoggedFetchError               // NotFound or Forbidden was caught and logged
    | DeleteBotReply                 // `reaction.message.delete()`
    | RetractReaction(user: Snowflake) // `reaction.remove(user)`
    | Unhandled                      // another HTTPException escapes the handler

  /** All guards before the fetch pass: not the bot's own reaction, the ❌
      emoji, a message by the bot, younger than 5 minutes, that replies to
      something. */
  predicate Eligible(ev: ReactionEvent, botId: Snowflake, now: int) {
    && ev.reactor != botId
    && ev.emoji == UnicodeEmoji(CrossMark)
    && ev.messageAuthor == botId
    && now - ev.messageCreatedAt < DeleteWindow
    && ev.reference.Some?
  }

  /** `referenced` is the outcome of fetching the message the bot replied to,
      given as the id of its author. */
  function HandleReactionAdd(ev: ReactionEvent, botId: Snowflake, now: int, referenced: Fetch<Snowflake>): (r: Outcome)
    ensures !Eligible(ev, botId, now) ==> r == Ignored
    ensures r == DeleteBotReply <==> Eligible(ev, botId, now) && referenced == Found(ev.reactor)
    ensures r.RetractReaction? <==>
              Eligible(ev, botId, now) && referenced.Found? && referenced.value != ev.reactor
    ensures r.RetractReaction? ==> r.user == ev.reactor
    ensures Eligible(ev, botId, now) && (referenced.NotFound? || referenced.Forbidden?) ==> r == LoggedFetchError
  {
    if ev.reactor == botId then Ignored
    else if ev.emoji != UnicodeEmoji(CrossMark) then Ignored
    else if ev.messageAuthor != botId then Ignored
    else if now - ev.messageCreatedAt >= DeleteWindow then Ignored
    else if ev.reference.None? then Ignored
    else match referenced
      case NotFound => LoggedFetchError
      case Forbidden => LoggedFetchError
      case HttpError => Unhandled
      case Found(author) => if author == ev.reactor then DeleteBotReply else RetractReaction(ev.reactor)
  }

  /** Only the author of the message the bot answered can make it delete the
      answer, and the bot's own reactions never delete anything. */
  lemma OnlyOriginalAuthorDeletes(ev: ReactionEvent, botId: Snowflake, now: int, referenced: Fetch<Snowflake>)
    requires HandleReactionAdd(ev, botId, now, referenced) == DeleteBotReply
    ensures referenced == Found(ev.reactor) && ev.reactor != botId
    ensures now - ev.messageCreatedAt < DeleteWindow
  {
  }
}

=== FILE: server_search.dfy ===
/** The `/search` and `/stats` text builders of bot/utils.py. The REST calls
    are not modelled: the server list and the per-game payloads are inputs. */
module ServerSearch {
  import opened Wrappers
  import opened Text

  /** One entry of the server list. `hostname` and `ip` may be missing from
      the payload (`server.get(key, "")`); the other displayed fields are
      assumed present. */
  datatype Server = Server(
    hostname: Option<string>,
    ip: Option<string>,
    game: string,
    gametype: string,
    mapName: string,
    realClients: int,
    maxPlayers: int)

  const MaxResults: nat := 5
  const NoServersText := "No servers found matching your query."
  const MissingHostname := "KeyError: 'hostnameDisplay'"

  function Min(a: nat, b: nat): nat {
    if a <= b then a else b
  }

  /** The lower-cased query occurs in the lower-cased hostname or ip. */
  predicate Matches(cc: CharClasses, query: string, s: Server) {
    var q := cc.lower(query);
    Contains(cc.lower(s.hostname.GetOr("")), q) || Contains(cc.lower(s.ip.GetOr("")), q)
  }

  /** The list comprehension building `matching_servers`. */
  function MatchingServers(cc: CharClasses, query: string, servers: seq<Server>): (r: seq<Server>)
    ensures |r| <= |servers|
    ensures forall s :: s in r <==> s in servers && Matches(cc, query, s)
    decreases |servers|
  {
    if servers == [] then []
    else
      (if Matches(cc, query, servers[0]) then [servers[0]] else [])
      + MatchingServers(cc, query, servers[1..])
  }

  /** Filtering keeps input order: it distributes over concatenation. */
  lemma {:induction false} MatchingKeepsOrder(cc: CharClasses, query: string, a: seq<Server>, b: seq<Server>)
    ensures MatchingServers(cc, query, a + b) == MatchingServers(cc, query, a) + MatchingServers(cc, query, b)
    decreases |a|
  {
    if a == [] {
      assert a + b == b;
    } else {
      assert (a + b)[0] == a[0];
      assert (a + b)[1..] == a[1..] + b;
      MatchingKeepsOrder(cc, query, a[1..], b);
    }
  }

  /** The servers listed: the first `MaxResults` matches. */
  function Shown(matches: seq<Server>): seq<Server> {
    matches[..Min(|matches|, MaxResults)]
  }

  function Header(count: nat, query: string): string {
    "Top " + NatToString(count) + " servers matching \"" + query + "\":\n"
  }

  /** One listing line; `server['hostnameDisplay']` raises when the key is missing. */
  function ServerLine(s: Server): (line: Option<string>)
    ensures line.Some? <==> s.hostname.Some?
  {
    match s.hostname
    case None => None
    case Some(h) =>
      Some("- **" + h + "** | " + s.game + " | **Gametype**: " + s.gametype
        + " | **Map**: " + s.mapName + " | **Players**: " + IntToString(s.realClients)
        + "/" + IntToString(s.maxPlayers) + "\n")
  }

  /** The line of each listed server, in order, when every one has a hostname. */
  function Rendered(shown: seq<Server>): (lines: seq<string>)
    requires forall i :: 0 <= i < |shown| ==> shown[i].hostname.Some?
    ensures |lines| == |shown|
    ensures forall i :: 0 <= i < |shown| ==> Some(lines[i]) == ServerLine(shown[i])
  {
    seq(|shown|, i requires 0 <= i < |shown| => ServerLine(shown[i]).value)
  }

  /** The listing lines in order, or the KeyError of the first server without a hostname. */
  function Lines(shown: seq<Server>): (r: Result<string>)
    ensures r.Success? <==> forall i :: 0 <= i < |shown| ==> shown[i].hostname.Some?
    ensures r.Success? ==> r.value == Concat(Rendered(shown))
    ensures r.Failure? ==> r.error == MissingHostname
    decreases |shown|
  {
    if shown == [] then Success("")
    else match ServerLine(shown[0])
      case None => Failure(MissingHostname)
      case Some(line) =>
        match Lines(shown[1..])
        case Failure(e) => Failure(e)
        case Success(rest) =>
          assert forall i :: 1 <= i < |shown| ==> shown[i] == shown[1..][i - 1];
          var all := Rendered(shown);
          assert all[0] == line;
          assert all[1..] == Rendered(shown[1..]);
          Success(line + rest)
  }

  /** `perform_search` over the fetched server list. */
  function PerformSearch(cc: CharClasses, query: string, servers: seq<Server>): (r: Result<string>)
    ensures r == Success(NoServersText) <==> MatchingServers(cc, query, servers) == []
    ensures var m := MatchingServers(cc, query, servers);
            m != [] ==> (r.Success? <==> forall s :: s in Shown(m) ==> s.hostname.Some?)
    ensures var m := MatchingServers(cc, query, servers);
            m != [] && r.Success? ==> StartsWith(r.value, Header(Min(|m|, MaxResults), query))
    ensures var m := MatchingServers(cc, query, servers);
            m != [] && r.Success? ==> r.value == Header(|Shown(m)|, query) + Concat(Rendered(Shown(m)))
  {
    var m := MatchingServers(cc, query, servers);
    if m == [] then Success(NoServersText)
    else
      var shown := Shown(m);
      var header := Header(|shown|, query);
      match Lines(shown)
      case Failure(e) => Failure(e)
      case Success(body) =>
        var text := header + body;
        assert text[..|header|] == header;
        assert text[0] == 'T' != NoServersText[0];
        Success(text)
  }

  /** The listing: at most five servers, each a match, the first matches in input order. */
  lemma ListingBounds(cc: CharClasses, query: string, servers: seq<Server>)
    ensures var m := MatchingServers(cc, query, servers);
            && |Shown(m)| == Min(|m|, MaxResults) <= MaxResults
            && Shown(m) == m[..|Shown(m)|]
            && forall s :: s in Shown(m) ==> s in servers && Matches(cc, query, s)
  {
    var m := MatchingServers(cc, query, servers);
    forall s | s in Shown(m)
      ensures s in m
    {
      var i :| 0 <= i < |Shown(m)| && Shown(m)[i] == s;
      assert m[i] == s;
    }
  }

  datatype GameData = NoResponse | Json(fields: map<string, string>)

  /** Python truthiness of the payload: `None` and `{}` are falsy. */
  predicate Truthy(d: GameData) {
    d.Json? && |d.fields| > 0
  }

  const Games := ["iw4", "s1", "iw6", "t7"]
  const StatsHeader := "**Stats for all games:**\n"

  function FieldOr(fields: map<string, string>, key: string): string {
    if key in fields then fields[key] else "N/A"
  }

  function FailedLine(game: string): string {
    "**" + AsciiUpper(game) + ":** Failed to fetch stats.\n"
  }

  /** The line `compile_stats` writes for one game. */
  function GameLine(game: string, d: GameData): string {
    if Truthy(d) then
      "**" + AsciiUpper(game) + ":** Total Servers: " + FieldOr(d.fields, "countServers")
      + ", Total Players: " + FieldOr(d.fields, "countPlayers") + "\n"
    else FailedLine(game)
  }

  /** One line per game, in the order of `games`, each from that game's payload only. */
  function StatLines(games: seq<string>, fetch: string -> GameData): (lines: seq<string>)
    ensures |lines| == |games|
    ensures forall i :: 0 <= i < |games| ==> lines[i] == GameLine(games[i], fetch(games[i]))
    decreases |games|
  {
    if games == [] then [] else [GameLine(games[0], fetch(games[0]))] + StatLines(games[1..], fetch)
  }

  function Concat(lines: seq<string>): string
    decreases |lines|
  {
    if lines == [] then "" else lines[0] + Concat(lines[1..])
  }

  /** `compile_stats`, with `fetch_game_stats` as the parameter `fetch`. */
  function CompileStats(fetch: string -> GameData): (r: string)
    ensures StartsWith(r, StatsHeader)
  {
    var r := StatsHeader + Concat(StatLines(Games, fetch));
    assert r[..|StatsHeader|] == StatsHeader;
    r
  }

  lemma ConcatFour(a: string, b: string, c: string, d: string)
    ensures Concat([a, b, c, d]) == a + (b + (c + d))
  {
    assert [a, b, c, d][1..] == [b, c, d];
    assert [b, c, d][1..] == [c, d];
    assert [c, d][1..] == [d];
    assert [d][1..] == [];
    assert Concat([d]) == d + "" == d;
    assert Concat([c, d]) == c + d;
    assert Concat([b, c, d]) == b + (c + d);
  }

  /** The header, then exactly one line per game, in the order of `Games`
      (iw4, s1, iw6, t7). */
  lemma CompileStatsLayout(fetch: string -> GameData)
    ensures var l := StatLines(Games, fetch);
            CompileStats(fetch) == StatsHeader + (l[0] + (l[1] + (l[2] + l[3])))
  {
    var l := StatLines(Games, fetch);
    assert |l| == 4;
    assert l == [l[0], l[1], l[2], l[3]];
    ConcatFour(l[0], l[1], l[2], l[3]);
  }

  /** A failed fetch yields the failure line for that game, and each game's
      line depends on nothing but that game's own payload. */
  lemma FailureIsLocal(fetch: string -> GameData, fetch': string -> GameData, i: int)
    requires 0 <= i < |Games|
    ensures !Truthy(fetch(Games[i])) ==> StatLines(Games, fetch)[i] == FailedLine(Games[i])
    ensures fetch(Games[i]) == fetch'(Games[i]) ==>
            StatLines(Games, fetch)[i] == StatLines(Games, fetch')[i]
  {
  }
}

=== FILE: store.dfy ===
/** The SQLite tables of database/__init__.py as an abstract store.

    schema.sql is not part of this model, so its keys are assumptions:
    - `message_patterns.id` is an INTEGER PRIMARY KEY; an INSERT without an id
      gets SQLite's default rowid, one more than the largest present (1 in an
      empty table), and a SELECT without ORDER BY lists rows in rowid order;
    - `user_id` is the PRIMARY KEY (or UNIQUE) of `user_roles` and of
      `black_list`, so each is a map from user id to its one row; without that
      key INSERT OR REPLACE / INSERT OR IGNORE would simply insert;
    - `aka_list` has no uniqueness constraint and `LIMIT 1` without ORDER BY
      yields the first matching row in rowid order.
    `aware_utcnow().isoformat()` is the `now` argument. */
module Store {
  import opened Wrappers
  import opened Text

  type UserId = nat

  datatype PatternRow = PatternRow(id: int, regex: string, response: string)

  /** One element of `get_meme_patterns()`: `{"regex": ..., "response": ...}`. */
  datatype Pattern = Pattern(regex: string, response: string)

  datatype RoleRow = RoleRow(roleId: nat, userName: string, dateAssigned: string)

  datatype BlacklistRow = BlacklistRow(reason: string, dateAssigned: string)

  datatype AkaRow = AkaRow(aka: string, response: string)

  datatype Db = Db(
    patterns: seq<PatternRow>,
    userRoles: map<UserId, RoleRow>,
    blackList: map<UserId, BlacklistRow>,
    akaList: seq<AkaRow>)

  /** Pattern rows are listed in strictly increasing id (rowid) order; in
      particular ids are unique. */
  ghost predicate RowidOrdered(rows: seq<PatternRow>) {
    forall i, j :: 0 <= i < j < |rows| ==> rows[i].id < rows[j].id
  }

  function MaxId(rows: seq<PatternRow>): (m: int)
    ensures forall i :: 0 <= i < |rows| ==> rows[i].id <= m
    ensures rows == [] ==> m == 0
    decreases |rows|
  {
    if rows == [] then 0
    else
      var rest := MaxId(rows[..|rows| - 1]);
      var last := rows[|rows| - 1].id;
      if rest < last then last else rest
  }

  /** The rowid SQLite gives the next inserted pattern. */
  function NextId(db: Db): int {
    MaxId(db.patterns) + 1
  }

  /** `get_meme_patterns()`. */
  function GetMemePatterns(db: Db): (ps: seq<Pattern>)
    ensures |ps| == |db.patterns|
    ensures forall i :: 0 <= i < |ps| ==> ps[i] == Pattern(db.patterns[i].regex, db.patterns[i].response)
  {
    seq(|db.patterns|, i requires 0 <= i < |db.patterns| =>
      Pattern(db.patterns[i].regex, db.patterns[i].response))
  }

  /** `add_meme_pattern(regex, response)`: a plain INSERT with a fresh rowid. */
  function AddMemePattern(db: Db, regex: string, response: string): (db': Db)
    ensures GetMemePatterns(db') == GetMemePatterns(db) + [Pattern(regex, response)]
    ensures forall i :: 0 <= i < |db.patterns| ==> db.patterns[i].id != NextId(db)
    ensures RowidOrdered(db.patterns) ==> RowidOrdered(db'.patterns)
    ensures db'.userRoles == db.userRoles && db'.blackList == db.blackList && db'.akaList == db.akaList
  {
    var db' := db.(patterns := db.patterns + [PatternRow(NextId(db), regex, response)]);
    assert GetMemePatterns(db') == GetMemePatterns(db) + [Pattern(regex, response)];
    db'
  }

  function WithoutId(rows: seq<PatternRow>, id: int): (r: seq<PatternRow>)
    ensures forall row :: row in r <==> row in rows && row.id != id
    ensures |r| <= |rows|
    ensures RowidOrdered(rows) ==> RowidOrdered(r)
    decreases |rows|
  {
    if rows == [] then []
    else
      var rest := WithoutId(rows[1..], id);
      if rows[0].id == id then rest
      else
        assert forall row :: row in rest ==> row in rows[1..];
        [rows[0]] + rest
  }

  /** `remove_meme_pattern(id)`: DELETE ... WHERE id = ?. */
  function RemoveMemePattern(db: Db, id: int): (db': Db)
    ensures forall row :: row in db'.patterns <==> row in db.patterns && row.id != id
    ensures RowidOrdered(db.patterns) ==> RowidOrdered(db'.patterns)
    ensures db'.userRoles == db.userRoles && db'.blackList == db.blackList && db'.akaList == db.akaList
  {
    db.(patterns := WithoutId(db.patterns, id))
  }

  /** Deleting an id that no row carries changes nothing. */
  lemma {:induction false} RemoveAbsentIdIsNoop(rows: seq<PatternRow>, id: int)
    requires forall i :: 0 <= i < |rows| ==> rows[i].id != id
    ensures WithoutId(rows, id) == rows
    decreases |rows|
  {
    if rows != [] {
      RemoveAbsentIdIsNoop(rows[1..], id);
      assert [rows[0]] + rows[1..] == rows;
    }
  }

  /** Removing the row just added restores the table exactly. */
  lemma {:induction false} AddThenRemoveRestores(db: Db, regex: string, response: string)
    ensures RemoveMemePattern(AddMemePattern(db, regex, response), NextId(db)) == db
  {
    var rows := db.patterns;
    var row := PatternRow(NextId(db), regex, response);
    WithoutIdAppend(rows, row, NextId(db));
    RemoveAbsentIdIsNoop(rows, NextId(db));
  }

  lemma {:induction false} WithoutIdAppend(rows: seq<PatternRow>, row: PatternRow, id: int)
    requires row.id == id
    ensures WithoutId(rows + [row], id) == WithoutId(rows, id)
    decreases |rows|
  {
    if rows == [] {
      assert rows + [row] == [row];
      assert [row][1..] == [];
    } else {
      assert (rows + [row])[1..] == rows[1..] + [row];
      WithoutIdAppend(rows[1..], row, id);
    }
  }

  /** `migrate_users_with_role`: INSERT OR IGNORE keyed by user id. */
  function MigrateUsersWithRole(db: Db, user: UserId, roleId: nat, userName: string, now: string): (db': Db)
    ensures user in db.userRoles ==> db' == db
    ensures user !in db.userRoles ==> db'.userRoles == db.userRoles[user := RoleRow(roleId, userName, now)]
    ensures db'.patterns == db.patterns && db'.blackList == db.blackList && db'.akaList == db.akaList
  {
    if user in db.userRoles then db
    else db.(userRoles := db.userRoles[user := RoleRow(roleId, userName, now)])
  }

  /** `add_user_to_role`: INSERT OR REPLACE keyed by user id. */
  function AddUserToRole(db: Db, user: UserId, roleId: nat, userName: string, now: string): (db': Db)
    ensures user in db'.userRoles && db'.userRoles[user] == RoleRow(roleId, userName, now)
    ensures db'.userRoles.Keys == db.userRoles.Keys + {user}
    ensures forall u :: u in db.userRoles && u != user ==> db'.userRoles[u] == db.userRoles[u]
    ensures db'.patterns == db.patterns && db'.blackList == db.blackList && db'.akaList == db.akaList
  {
    db.(userRoles := db.userRoles[user := RoleRow(roleId, userName, now)])
  }

  /** `user_has_role`: SELECT 1 ... WHERE user_id = ?. */
  function UserHasRole(db: Db, user: UserId): (b: bool)
    ensures b <==> user in db.userRoles.Keys
  {
    user in db.userRoles
  }

  /** Either insert leaves the user with a row, and neither grows the table by
      more than that user; re-adding an existing user adds no row. */
  lemma RoleInsertsAreKeyed(db: Db, user: UserId, roleId: nat, userName: string, now: string)
    ensures UserHasRole(AddUserToRole(db, user, roleId, userName, now), user)
    ensures UserHasRole(MigrateUsersWithRole(db, user, roleId, userName, now), user)
    ensures UserHasRole(db, user) ==> |AddUserToRole(db, user, roleId, userName, now).userRoles| == |db.userRoles|
    ensures forall u :: UserHasRole(AddUserToRole(db, user, roleId, userName, now), u) <==> UserHasRole(db, u) || u == user
  {
    var db' := AddUserToRole(db, user, roleId, userName, now);
    if UserHasRole(db, user) {
      assert db'.userRoles.Keys == db.userRoles.Keys;
    }
  }

  /** `add_user_to_blacklist`: INSERT OR IGNORE keyed by user id. */
  function AddUserToBlacklist(db: Db, user: UserId, reason: string, now: string): (db': Db)
    ensures user in db'.blackList
    ensures user in db.blackList ==> db' == db
    ensures user !in db.blackList ==> db'.blackList == db.blackList[user := BlacklistRow(reason, now)]
    ensures db'.patterns == db.patterns && db'.userRoles == db.userRoles && db'.akaList == db.akaList
  {
    if user in db.blackList then db
    else db.(blackList := db.blackList[user := BlacklistRow(reason, now)])
  }

  /** `is_user_blacklisted`. */
  function IsUserBlacklisted(db: Db, user: UserId): (b: bool)
    ensures b <==> user in db.blackList.Keys
  {
    user in db.blackList
  }

  /** Blacklisting twice keeps the first reason. */
  lemma FirstReasonKept(db: Db, user: UserId, r1: string, r2: string, t1: string, t2: string)
    requires !IsUserBlacklisted(db, user)
    ensures var db' := AddUserToBlacklist(AddUserToBlacklist(db, user, r1, t1), user, r2, t2);
            IsUserBlacklisted(db', user) && db'.blackList[user].reason == r1
  {
  }

  /** `add_aka_response`: a plain INSERT. */
  function AddAkaResponse(db: Db, aka: string, response: string): (db': Db)
    ensures db'.akaList == db.akaList + [AkaRow(aka, response)]
    ensures db'.patterns == db.patterns && db'.userRoles == db.userRoles && db'.blackList == db.blackList
  {
    db.(akaList := db.akaList + [AkaRow(aka, response)])
  }

  predicate AkaMatches(row: AkaRow, keyword: string) {
    AsciiLower(row.aka) == AsciiLower(keyword)
  }

  function FirstAka(rows: seq<AkaRow>, keyword: string): (r: Option<string>)
    ensures r.None? <==> forall i :: 0 <= i < |rows| ==> !AkaMatches(rows[i], keyword)
    ensures r.Some? ==> exists i :: 0 <= i < |rows| && AkaMatches(rows[i], keyword)
                          && rows[i].response == r.value
                          && forall j :: 0 <= j < i ==> !AkaMatches(rows[j], keyword)
    decreases |rows|
  {
    if rows == [] then None
    else if AkaMatches(rows[0], keyword) then Some(rows[0].response)
    else
      var r := FirstAka(rows[1..], keyword);
      assert forall i :: 1 <= i < |rows| ==> rows[i] == rows[1..][i - 1];
      r
  }

  /** `search_aka`: `WHERE LOWER(aka) = LOWER(?) LIMIT 1`. */
  function SearchAka(db: Db, keyword: string): (r: Option<string>)
    ensures r.None? <==> forall i :: 0 <= i < |db.akaList| ==> !AkaMatches(db.akaList[i], keyword)
    ensures r.Some? ==> exists i :: 0 <= i < |db.akaList| && AkaMatches(db.akaList[i], keyword)
                          && db.akaList[i].response == r.value
  {
    FirstAka(db.akaList, keyword)
  }

  /** After adding an alias, searching for it in any ASCII letter case finds an
      answer, and finds the new response when no earlier alias matched. */
  lemma {:induction false} AkaFoundAfterAdd(db: Db, aka: string, response: string, keyword: string)
    requires AsciiLower(keyword) == AsciiLower(aka)
    ensures SearchAka(AddAkaResponse(db, aka, response), keyword).Some?
    ensures SearchAka(db, keyword).None? ==>
            SearchAka(AddAkaResponse(db, aka, response), keyword) == Some(response)
  {
    var rows := AddAkaResponse(db, aka, response).akaList;
    assert AkaMatches(rows[|rows| - 1], keyword);
  }
}

=== FILE: text.dfy ===
/** String helpers with the meaning of the Python built-ins the bot uses. */
module Text {

  predicate IsAsciiDigit(c: char) {
    '0' <= c <= '9'
  }

  predicate AllAsciiDigits(s: string) {
    forall i :: 0 <= i < |s| ==> IsAsciiDigit(s[i])
  }

  function DigitValue(c: char): nat
    requires IsAsciiDigit(c)
  {
    (c as int) - ('0' as int)
  }

  function DigitChar(d: nat): (c: char)
    requires d < 10
    ensures IsAsciiDigit(c) && DigitValue(c) == d
  {
    (('0' as int) + d) as char
  }

  /** The number a string of decimal digits denotes (Python's `int(s)`). */
  function DecimalValue(s: string): nat
    requires AllAsciiDigits(s)
    decreases |s|
  {
    if s == [] then 0 else 10 * DecimalValue(s[..|s| - 1]) + DigitValue(s[|s| - 1])
  }

  /** Python's `str(n)` for a non-negative integer. */
  function NatToString(n: nat): (s: string)
    ensures |s| >= 1 && AllAsciiDigits(s)
    decreases n
  {
    if n < 10 then [DigitChar(n)] else NatToString(n / 10) + [DigitChar(n % 10)]
  }

  /** Python's `str(i)` for any integer. */
  function IntToString(i: int): string {
    if i < 0 then "-" + NatToString(-i) else NatToString(i)
  }

  /** Reading back what `NatToString` wrote gives the number again. */
  lemma {:induction false} NatToStringRoundTrip(n: nat)
    ensures DecimalValue(NatToString(n)) == n
    decreases n
  {
    if n >= 10 {
      var p := NatToString(n / 10);
      var s := p + [DigitChar(n % 10)];
      assert s[..|s| - 1] == p;
      NatToStringRoundTrip(n / 10);
    }
  }

  /** Python's `f"{n:02d}"` for 0 <= n < 100: two digits, zero-padded. */
  function ZeroPad2(n: nat): (s: string)
    requires n < 100
    ensures |s| == 2 && AllAsciiDigits(s) && DecimalValue(s) == n
  {
    var s := [DigitChar(n / 10), DigitChar(n % 10)];
    assert s[..1] == [s[0]] && [s[0]][..0] == [];
    assert DecimalValue([s[0]]) == n / 10;
    assert DecimalValue(s) == 10 * (n / 10) + n % 10;
    s
  }

  /** Python's `s.startswith(p)`. */
  predicate StartsWith(s: string, p: string) {
    |p| <= |s| && s[..|p|] == p
  }

  /** Python's `s.endswith(p)`. */
  predicate EndsWith(s: string, p: string) {
    |p| <= |s| && s[|s| - |p|..] == p
  }

  /** Python's `needle in haystack` on strings (true for an empty needle). */
  predicate Contains(haystack: string, needle: string)
    decreases |haystack|
  {
    StartsWith(haystack, needle) || (haystack != [] && Contains(haystack[1..], needle))
  }

  function AsciiUpperChar(c: char): char {
    if 'a' <= c <= 'z' then ((c as int) - 32) as char else c
  }

  function AsciiLowerChar(c: char): char {
    if 'A' <= c <= 'Z' then ((c as int) + 32) as char else c
  }

  /** Python's `str.upper()` restricted to ASCII text (the game names are ASCII). */
  function AsciiUpper(s: string): (r: string)
    ensures |r| == |s|
  {
    seq(|s|, i requires 0 <= i < |s| => AsciiUpperChar(s[i]))
  }

  /** SQLite's built-in `LOWER()`, which folds only the ASCII letters A-Z. */
  function AsciiLower(s: string): (r: string)
    ensures |r| == |s|
  {
    seq(|s|, i requires 0 <= i < |s| => AsciiLowerChar(s[i]))
  }

  /** Python's Unicode character database, which the model does not reimplement:
      `\d` in a `re` pattern (`isDecimal`), `str.isnumeric` per character
      (`isNumeric`), `str.isspace` per character (`isSpace`) and `str.lower`
      (`lower`, which may change a string's length). */
  datatype CharClasses = CharClasses(
    isDecimal: char -> bool,
    isNumeric: char -> bool,
    isSpace: char -> bool,
    lower: string -> string)

  /** The part of the Unicode tables the model relies on: among ASCII
      characters exactly '0'..'9' are numeric. Nothing is assumed about the
      decimal class. */
  ghost predicate AgreesOnAscii(cc: CharClasses) {
    forall c: char :: c as int < 0x80 ==> (cc.isNumeric(c) <==> IsAsciiDigit(c))
  }

  /** Python's `not s.strip()`: nothing but whitespace is left. */
  predicate IsBlank(cc: CharClasses, s: string) {
    forall i :: 0 <= i < |s| ==> cc.isSpace(s[i])
  }
}

=== FILE: throttle.dfy ===
/** `handle_crazy` and `handle_hate_me` (bot/events_handlers/message_events.py):
    each answers one fixed user at most once per 8 hours. `aware_utcnow()` is
    the integer `now`; `last` is the module-level last-response time. */
module Throttle {
  import opened Wrappers
  import opened Platform

  const CrazyUserId: Snowflake := 1319364607487512658
  const CrazyUrl := "https://cdn.discordapp.com/attachments/1119371841711112314/1329770453744746559/download.png"
  const HateMeUserId: Snowflake := 748201351665680438
  const HateMeUrl := "https://cdn.discordapp.com/attachments/1160511084143312959/1361051561400205524/download_1.png"

  const Interval := Hours(8)

  datatype Throttled = Throttled(fired: bool, last: Option<int>)

  /** One throttled responder: fires for `target` only, when it never fired or
      fired at least 8 hours ago; firing records `now`. */
  function Respond(target: Snowflake, last: Option<int>, author: Snowflake, now: int): (r: Throttled)
    ensures r.fired <==> author == target && (last.None? || now - last.value >= Interval)
    ensures r.fired ==> r.last == Some(now)
    ensures !r.fired ==> r.last == last
  {
    if author == target && (last.None? || now - last.value >= Interval) then Throttled(true, Some(now))
    else Throttled(false, last)
  }

  /** After firing at `t1`, nothing fires again before `t1 + 8h`, and anything
      from the target fires again from then on. */
  lemma AtMostOncePerInterval(target: Snowflake, last: Option<int>, a1: Snowflake, t1: int, a2: Snowflake, t2: int)
    requires Respond(target, last, a1, t1).fired
    ensures t2 < t1 + Interval ==> !Respond(target, Respond(target, last, a1, t1).last, a2, t2).fired
    ensures t2 >= t1 + Interval && a2 == target ==>
              Respond(target, Respond(target, last, a1, t1).last, a2, t2).fired
  {
  }
}

=== FILE: wrappers.dfy ===
/** Failure-compatible wrappers used across the model. */
module Wrappers {

  /** A value that may be absent (Python's `None`). */
  datatype Option<+T> = None | Some(value: T) {

    /** The wrapped value, or `default` when absent (Python's `d.get(k, default)`). */
    function GetOr(default: T): T {
      match this
      case Some(v) => v
      case None => default
    }
  }

  /** The outcome of a computation that can raise: `Failure` names the exception. */
  datatype Result<+T> = Success(value: T) | Failure(error: string)
}
